=== FILE: README.md ===
# ged_tagcheck in Dafny

A model of the GEDCOM syntax checker `ged_tagcheck.py`. The checker reads a
GEDCOM file, rebuilds its tree from the level numbers, checks each INDI and
FAM record against a fixed set of cardinality rules, and reports one row
`(record kind, record id, message)` per violation. It also counts the
records and the errors.

The model covers each stage in the program's own terms:

- `Text`: the two string normalisations, `str.strip()` and `str.upper()`.
- `Tree`: the `Node` class and the `[c for c in cs if c.tag == tag]` filter.
- `Parser`: `parse_gedcom`, written as a fold over the lines. The fold keeps
  an explicit stack of open nodes.
- `Forest`: a second, declarative reading of the parser's result, the
  "block forest". A line owns the run of deeper lines that follows it. The
  proofs show that the stack algorithm builds exactly that forest, and that
  the forest loses and reorders no line.
- `Findings`: one constructor per kind of message. Each constructor keeps
  the values the message is filled in with.
- `Individual`: `validate_individual`.
- `Family`: `validate_family`.
- `Report`: the record loop of `main`. It covers dispatch on the record
  kind, report rows, the INDI/FAM counts and the error total.
- `Scenarios`: concrete records and one whole file, each with the report
  the program produces for it.
- `Wrappers`: the `Option` type.
- `Seqs`: small facts about concatenating and slicing sequences, used by the
  proofs.

Each rule gets an if-and-only-if lemma, which states when exactly its
finding is reported, and ordering and counting lemmas state in what order
and how often findings appear. The parser is tied to the block forest by the theorem
`Parse(lines) == Records(Build(Nodes(lines)))`.

### The NAME rule's `elif`

An INDI with two untyped NAMEs gets only `UntypedNamesRepeated(2)`: the
`elif` at ged_tagcheck.py:87 skips the order check once the count check has
fired. A file with one such INDI and one FAM without spouses therefore gives
two report rows and an error total of 2, as `Scenarios.EndToEnd` states.

## Model

| member | source | states |
|---|---|---|
| Text.Trim | ged_tagcheck.py:28-29 | the result has no whitespace at either end; it is the input with only whitespace (Python's `isspace` set) removed, from the two ends |
| Text.TrimOfTrimmed | ged_tagcheck.py:28-29 | stripping a string that has no whitespace at either end changes nothing |
| Text.Upper | ged_tagcheck.py:28 | same length, no lower-case letter left, and every character is the capital of the input character at that position |
| Text.UpperOfUpper | ged_tagcheck.py:28 | upper-casing a string without lower-case letters changes nothing |
| Tree.NewNode | ged_tagcheck.py:26-30 | the level is kept and there are no children; the value is a slice of the input value with only whitespace cut off at both ends (`value.strip()`), and the tag is the character-wise upper-casing of such a slice of the input tag (`tag.strip().upper()`); both are trimmed, and a tag or value that is already clean is kept unchanged |
| Tree.Tagged | ged_tagcheck.py:70 | the filter keeps only nodes with the tag and is never longer than its input |
| Tree.TaggedAt | ged_tagcheck.py:70 | a node with the tag appears in the filtered list at the position given by the number of nodes with the tag before it |
| Tree.TaggedMembers | ged_tagcheck.py:70 | a node is in the filtered list if and only if it is a child with that tag |
| Tree.TaggedAppend | ged_tagcheck.py:70 | filtering a concatenation is concatenating the filtered parts |
| Tree.HasChildIffCount | ged_tagcheck.py:84 | `any(ch.tag == t ...)` holds exactly when the count of children tagged `t` is positive |
| Parser.Emit | ged_tagcheck.py:53-58 | a node finished under an open parent becomes that parent's last child and leaves the roots alone; with nothing open, it is appended to the roots exactly when its value is INDI or FAM |
| Parser.EmitKeepsGood | ged_tagcheck.py:53-58 | attaching a well-nested node below a shallower parent, or keeping a record at the top, preserves the parser invariant |
| Parser.EmitKeepsLevels | ged_tagcheck.py:53-54 | attaching a child changes no level on the stack |
| Parser.Pop | ged_tagcheck.py:52 | `stack.pop()` removes exactly one frame |
| Parser.PopWhile | ged_tagcheck.py:51-52 | the popping loop never grows the stack and stops with an empty stack or a top shallower than the new level |
| Parser.PopWhileKeepsBottom | ged_tagcheck.py:51-52 | what the loop leaves is the bottom of the stack it started from, level for level |
| Parser.PopWhileRemovesDeeper | ged_tagcheck.py:51-52 | every frame the loop removes was at the new level or deeper |
| Parser.PopWhileKeepsGood | ged_tagcheck.py:51-58 | the popping loop preserves the invariant: ordered stack, children deeper than their parents, roots that are records |
| Parser.PopWhileKeepsRoots | ged_tagcheck.py:51-58 | closing open nodes never removes or changes a root already collected; it can only add records |
| Parser.StepKeepsRoots | ged_tagcheck.py:46-59 | processing one line never removes or changes a root already collected |
| Parser.Insert | ged_tagcheck.py:50-59 | after a matched line, the new node is on top of the stack |
| Parser.InsertKeepsGood | ged_tagcheck.py:50-59 | processing one matched line preserves the invariant |
| Parser.Step | ged_tagcheck.py:46-59 | an unmatched line changes nothing; a matched line leaves its freshly constructed node on top of the stack |
| Parser.Feed | ged_tagcheck.py:44-59 | the line loop: a record once collected stays in the root list unchanged, a run of unmatched lines changes nothing, and after any matched line some node is open; `Parser.FeedKeepsGood` and `Forest.FeedIsInsertAll` state what the loop builds |
| Parser.FeedKeepsGood | ged_tagcheck.py:44-59 | the invariant holds after every line of the file |
| Parser.Parse | ged_tagcheck.py:38-60 | every returned root is an INDI or FAM record and every node in it sits deeper than its parent; an empty file gives no roots |
| Parser.LevelZeroEmptiesStack | ged_tagcheck.py:51-59 | a level-0 line closes every open node and starts a new top-level block |
| Forest.NodesFresh | ged_tagcheck.py:49-50 | every node constructed from a line starts without children |
| Forest.FeedIsInsertAll | ged_tagcheck.py:44-50 | feeding the lines is inserting the nodes of the matched lines, in order; unmatched lines contribute nothing |
| Forest.InsertAllBuildsForest | ged_tagcheck.py:51-59 | inserting a run of lines no shallower than `level` and then closing down to `level` hands on exactly the trees of the run's block forest, in order |
| Forest.Records | ged_tagcheck.py:57-58 | only trees whose value is INDI or FAM are kept |
| Forest.ParseIsBlockForest | ged_tagcheck.py:38-60 | the roots are exactly the trees of the block forest of the matched lines whose value is a record kind, in input order |
| Forest.BuildKeepsLines | ged_tagcheck.py:51-59 | walking the block forest in pre-order gives back every line it was built from, in order: building the block forest loses and reorders no line; `Forest.Records` then keeps only the INDI and FAM trees, so every top-level block of another kind (HEAD, TRLR, NOTE, ...) is dropped with all its lines |
| Individual.PartFindings | ged_tagcheck.py:74-79 | the findings for one event instance are duplicate-part findings for that event, and when both parts are duplicated the DATE finding comes before the PLAC finding |
| Individual.EventFindings | ged_tagcheck.py:69-79 | `check_event(tag)` reports only repetitions of that event and of its parts |
| Individual.InstanceFindings | ged_tagcheck.py:73-79 | the findings of all instances of an event are duplicate-part findings for that event |
| Individual.InstanceFindingsAppend | ged_tagcheck.py:73-79 | the findings of two runs of instances are those of the first run followed by those of the second: each instance contributes its own findings, in instance order |
| Individual.InstanceFindingsSingle | ged_tagcheck.py:73-79 | one instance contributes exactly its own DATE and PLAC findings |
| Individual.PartFindingsCount | ged_tagcheck.py:74-79 | one instance reports a duplicated DATE or PLAC at most once, with its count |
| Individual.InstanceFindingsCount | ged_tagcheck.py:73-79 | a duplicated part with count k is reported once for every instance that has k of them |
| Individual.EventFindingsRepeatCount | ged_tagcheck.py:69-72 | one event's findings hold its own repetition, with its number of occurrences, exactly once when it occurs more than once, and never another event's |
| Individual.EventRepeatedCount | ged_tagcheck.py:69-81 | the report of an individual holds `EVENT kommt mehrfach vor (k)` exactly once when BIRT or DEAT occurs k > 1 times, and otherwise not at all |
| Individual.EventPartRepeatedCount | ged_tagcheck.py:69-81 | the report of an individual holds `EVENT.PART` with count k exactly as many times as there are instances of the event with k such parts, whether or not the event is repeated; identical messages from two instances are both kept |
| Individual.UntypedFrom | ged_tagcheck.py:84 | the listed NAME positions are in range, strictly increasing, and name NAMEs without a TYPE |
| Individual.Untyped | ged_tagcheck.py:84 | the untyped list is exactly the positions of the NAMEs without a TYPE child, in increasing order |
| Individual.UntypedFromComplete | ged_tagcheck.py:84 | every NAME without a TYPE is listed |
| Individual.NameFindings | ged_tagcheck.py:83-88 | the NAME rule yields at most one finding, of one of its two kinds |
| Individual.Validate | ged_tagcheck.py:66-89 | only individual findings are produced |
| Individual.PartFindingsIff | ged_tagcheck.py:74-79 | a duplicate-part finding for one instance exists exactly for DATE or PLAC occurring more than once, with its count |
| Individual.InstanceFindingsIff | ged_tagcheck.py:73-79 | a duplicate-part finding comes from some instance of the event, and every instance's findings are included |
| Individual.EventRepeatedIff | ged_tagcheck.py:70-72 | BIRT or DEAT is reported as repeated exactly when it occurs more than once, with the number of occurrences |
| Individual.EventPartRepeatedIff | ged_tagcheck.py:73-79 | a duplicated DATE or PLAC is reported exactly when some instance of the event has it more than once, also when the event occurs only once |
| Individual.UntypedNamesRepeatedIff | ged_tagcheck.py:83-86 | several untyped NAMEs are reported exactly when there are more than one, with their number |
| Individual.UntypedNameNotFirstIff | ged_tagcheck.py:87-88 | the order finding is reported exactly when there is one untyped NAME and the first NAME carries a TYPE |
| Individual.IdentityIsValue | ged_tagcheck.py:87 | with one untyped NAME, comparing its position with 0 gives the same verdict as comparing the nodes by value |
| Individual.NameFindingsExclusive | ged_tagcheck.py:85-88 | the two NAME findings never occur together |
| Individual.EventOrdered | ged_tagcheck.py:69-79 | within `check_event(tag)` the repetition of the event comes before the part findings of its instances |
| Individual.ValidateOrdered | ged_tagcheck.py:69-88 | the BIRT repetition comes first, then the BIRT part findings, the DEAT repetition, the DEAT part findings, and last the NAME finding |
| Family.SpouseFindings | ged_tagcheck.py:96-104 | the spouse rule yields at most two findings |
| Family.FirstTagged | ged_tagcheck.py:113-116 | the loop with `break` finds a child with the tag if there is one, and none otherwise |
| Family.FirstTaggedIsHead | ged_tagcheck.py:113-116 | stopping at the first match picks the head of the filtered list |
| Family.MarrType | ged_tagcheck.py:112-116 | a MARR's TYPE, when present, has no lower-case letter |
| Family.MarrTypeIff | ged_tagcheck.py:112-116 | a MARR has a TYPE exactly when some child is tagged TYPE |
| Family.TypeFindings | ged_tagcheck.py:117-119 | the TYPE rule yields at most one finding per MARR |
| Family.MarrOne | ged_tagcheck.py:112-127 | one MARR yields at most three findings |
| Family.MarrFindings | ged_tagcheck.py:111-127 | the per-MARR loop yields at most three findings per MARR |
| Family.Tally | ged_tagcheck.py:110-121 | a tally never exceeds the number of MARRs |
| Family.TallyFindings | ged_tagcheck.py:128-131 | only CIVIL and RELIGIOUS tallies are ever reported |
| Family.Marrs | ged_tagcheck.py:107 | the MARR list holds exactly the family's children tagged MARR, one entry per such child |
| Family.MarrsInOrder | ged_tagcheck.py:107-111 | the MARR list keeps document order: the MARR child with p MARR children before it is entry p, so `enumerate(marr_nodes, 1)` numbers it p + 1 |
| Family.Validate | ged_tagcheck.py:91-132 | at most 3 + 3 * (number of MARRs) + 2 findings: two from the spouse rule, one for the MARR count, three per MARR and two tallies |
| Family.Sources | ged_tagcheck.py:91-132 | every finding comes from the spouse rule, the MARR count, some MARR, or the tallies, and each of these is reported |
| Family.ValidateKinds | ged_tagcheck.py:91-132 | only family findings are produced |
| Family.WifeRepeatedIff | ged_tagcheck.py:96-100 | more than one WIFE is reported exactly then, with the count |
| Family.HusbRepeatedIff | ged_tagcheck.py:97-102 | more than one HUSB is reported exactly then, with the count |
| Family.SpouseMissingIff | ged_tagcheck.py:103-104 | the missing-spouse finding is reported exactly when the family has neither a WIFE nor a HUSB child |
| Family.MarrTooManyIff | ged_tagcheck.py:107-109 | more than two MARRs are reported exactly then, with their number |
| Family.MarrOneIndex | ged_tagcheck.py:111-127 | every finding about one MARR carries that MARR's number |
| Family.MarrFindingsOwner | ged_tagcheck.py:111-127 | a per-MARR finding carries the number of an existing MARR, counted from 1, and that MARR produces it |
| Family.MarrFindingsHas | ged_tagcheck.py:111-127 | every finding any MARR produces is reported |
| Family.MarrFindingsNamed | ged_tagcheck.py:111-127 | a finding that the MARR named by its number produces is reported |
| Family.MarrFindingsAt | ged_tagcheck.py:111-127 | a per-MARR finding is reported exactly when the MARR its number names produces it |
| Family.MarrOneBadIff | ged_tagcheck.py:112-119 | a MARR's TYPE is reported exactly when present, non-empty and neither CIVIL nor RELIGIOUS after upper-casing |
| Family.MarrOnePartIff | ged_tagcheck.py:122-127 | a MARR's DATE or PLAC is reported exactly when it occurs more than once, with the count |
| Family.IndexedIff | ged_tagcheck.py:111-127 | a finding with a MARR number is in the family's report exactly when the number names one of its MARRs and that MARR alone produces it, whatever the other MARRs are |
| Family.TypeTallyExceededIff | ged_tagcheck.py:117-131 | a tally is reported exactly for CIVIL or RELIGIOUS with more than one MARR of that TYPE, with the count |
| Family.TalliesBounded | ged_tagcheck.py:117-121 | no MARR is counted under both supported TYPEs |
| Family.TallyNeedsTwo | ged_tagcheck.py:128-131 | a tally finding implies at least two MARRs |
| Family.EmptyTypeIgnored | ged_tagcheck.py:117 | an empty TYPE is neither reported nor tallied (`if typ:`) |
| Family.MarrTypeOfFirst | ged_tagcheck.py:112-116 | a MARR's TYPE is the upper-cased value of its first TYPE child, and absent when it has none, so TYPE values are compared without regard to case |
| Family.SpouseOrdered | ged_tagcheck.py:99-104 | WIFE, then HUSB, then the missing-spouse finding |
| Family.MarrOneOrdered | ged_tagcheck.py:112-127 | one MARR's findings come as TYPE, then DATE, then PLAC |
| Family.MarrOneFirst | ged_tagcheck.py:111-127 | every finding of a MARR comes before every finding of a later MARR |
| Family.MarrFindingsOrdered | ged_tagcheck.py:111-127 | the per-MARR findings come in MARR order, and in TYPE, DATE, PLAC order within one MARR |
| Family.TallyOrdered | ged_tagcheck.py:128-131 | the CIVIL tally comes before the RELIGIOUS tally |
| Family.ValidateOrdered | ged_tagcheck.py:91-132 | the findings come strictly in the program's order: WIFE, HUSB, missing spouses, the MARR count, then each MARR by number with TYPE, DATE, PLAC, then the CIVIL and RELIGIOUS tallies; no finding occurs twice |
| Report.RowsOf | ged_tagcheck.py:163-164 | one row per finding, in order, each carrying the record's kind and id |
| Report.Validate | ged_tagcheck.py:155-162 | an INDI root is checked by `Individual.Validate` and has only individual findings, a FAM root is checked by `Family.Validate`, and any other root has no findings |
| Report.Visit | ged_tagcheck.py:152-165 | a root that is neither INDI nor FAM is skipped; a pass only appends rows, and adds to the error total exactly the number of rows it appends |
| Report.Run | ged_tagcheck.py:152-165 | the record loop only appends rows, adds to the error total exactly the number of rows it appends, and never lowers a record count; `Report.RunRows` and `Report.RunCounts` state exactly what it adds |
| Report.Check | ged_tagcheck.py:150-165 | from an empty report, the error total is the number of rows |
| Report.CheckLines | ged_tagcheck.py:146-165 | parse then check: the error total is the number of rows, and an empty file gives an empty report; `Forest.ParseIsBlockForest` and `Report.RowsIff` state which rows |
| Report.VisitAdds | ged_tagcheck.py:152-165 | one pass appends the record's rows, counts it under its kind, and adds its number of findings to the error total |
| Report.RunRows | ged_tagcheck.py:152-164 | the loop appends every record's rows, record after record |
| Report.RunCounts | ged_tagcheck.py:152-165 | the loop adds the numbers of INDI and FAM roots to the counts, and the number of rows to the error total |
| Report.CheckCounts | ged_tagcheck.py:150-165 | the printed error total equals the number of report rows, and the two record counts equal the numbers of INDI and FAM roots |
| Report.RunAppend | ged_tagcheck.py:152-165 | running over two lists of roots one after the other is running over both together |
| Report.RowsOfHas | ged_tagcheck.py:163-164 | every finding of a record gets a row with that record's kind and id |
| Report.AllRowsOwner | ged_tagcheck.py:152-164 | every row comes from some root and carries its kind and id; its finding is one `validate_individual` reports if the root is INDI, or one `validate_family` reports if it is FAM |
| Report.AllRowsAppend | ged_tagcheck.py:152-164 | the rows of two runs of roots, one after the other, are the first run's rows followed by the second's |
| Report.AllRowsHas | ged_tagcheck.py:152-164 | every finding of every root gets a row with that root's kind and id |
| Report.AllRowsIff | ged_tagcheck.py:152-164 | a row is present exactly when, for some root, it carries the root's kind and id and its finding is reported by `validate_individual` (INDI root) or `validate_family` (FAM root) |
| Report.RowsIff | ged_tagcheck.py:152-164 | a row is in the report exactly when some root has its kind and id and either is INDI with the finding in `Individual.Validate` or is FAM with the finding in `Family.Validate` |
| Report.RowKinds | ged_tagcheck.py:153-164 | every row names INDI or FAM and carries a finding of that kind's validator |
| Scenarios.TwoBirths | ged_tagcheck.py:69-72 | two BIRTs give exactly one finding, with count 2 |
| Scenarios.OneBirthTwoDates | ged_tagcheck.py:73-79 | one BIRT with two DATEs gives exactly the duplicate-DATE finding |
| Scenarios.TypedThenUntypedName | ged_tagcheck.py:83-88 | a typed NAME followed by an untyped one gives exactly the order finding |
| Scenarios.SpouseRule | ged_tagcheck.py:96-104 | a family without spouses gives exactly the spouse finding; a single HUSB gives none |
| Scenarios.CivilTypes | ged_tagcheck.py:112-116 | TYPE `CIVIL` and TYPE `civil` both read as CIVIL |
| Scenarios.OtherMarrOne | ged_tagcheck.py:112-124 | a MARR with TYPE `X` reads as type X and draws exactly the unsupported-type finding under the number it is given |
| Scenarios.CivilThenOtherFindings | ged_tagcheck.py:111-131 | for a civil MARR followed by a TYPE `X` MARR the per-MARR loop reports only `MarrBadType(2, "X")` and neither tally exceeds 1 |
| Scenarios.CivilThenOtherParts | ged_tagcheck.py:95-107 | in that family the spouse rule is satisfied and the MARR list is the two MARRs in document order |
| Scenarios.CivilThenOtherMarriage | ged_tagcheck.py:92-131 | a HUSB with a civil MARR and then a TYPE `X` MARR gives exactly `MarrBadType(2, "X")`: the second MARR in document order is number 2 |
| Scenarios.TwoCivilMarriages | ged_tagcheck.py:107-131 | a HUSB with two civil MARRs, one typed in lower case, gives exactly the CIVIL tally finding with count 2 |
| Scenarios.FileRoots | ged_tagcheck.py:38-60 | the example file parses to its person and its family; the header is dropped and the unmatched line skipped |
| Scenarios.PersonFindings | ged_tagcheck.py:83-86 | two untyped NAMEs give exactly one finding, with count 2 |
| Scenarios.EndToEnd | ged_tagcheck.py:146-165 | the whole pipeline on the example file gives two rows, one individual, one family and an error total of 2 |
| Scenarios.EndToEndExample | ged_tagcheck.py:146-165 | the same for a file with concrete identifiers `@I1@` and `@F1@` |

## Left out

- Reading the file, the `rstrip("\n")` and the line pattern (ged_tagcheck.py:42-49). This is I/O plus a regular expression. The parser takes each line already split into the pattern's three groups, or `None` when the line does not match. `int()` of the digit group becomes a `nat`.
- The German message text (ged_tagcheck.py:72-131). Each finding keeps the values its message is filled in with: the tag, the count, the MARR number and the TYPE.
- Writing the CSV file and the console summary (ged_tagcheck.py:147-148, 166-174). `Report.Summary` holds exactly the rows and the three printed numbers.
- Command-line handling and the file-existence check (ged_tagcheck.py:138-145). They are I/O only.
- `Node.__repr__` (ged_tagcheck.py:31-32). It is debugging output only.
- In-place mutation. The program appends a node to its parent as soon as it reads the node, and keeps filling it in through the shared object. The model instead attaches a node to its parent, or to the roots, when the node is closed. `Forest.ParseIsBlockForest` states the resulting trees against an independent definition.
- Text.Upper: only ASCII letters are mapped. Python's full Unicode upper-casing is not modelled, for example `ß` to `SS`, which changes the length.
- Individual.Untyped: Python keeps the node objects and compares them by identity. The model keeps positions into the NAME list. `Individual.IdentityIsValue` shows that comparing by value would give the same verdict.
- Scenarios.EndToEnd: stated for header and record identifiers that the scenario picks already stripped and upper-case. GEDCOM also allows lower-case identifiers such as `@i1@`; the program upper-cases those on reading and reports them upper-cased, which this scenario does not cover.

=== FILE: family.dfy ===
/** `validate_family`: the rules for one FAM record. At most one WIFE and at
    most one HUSB, and at least one of the two; at most two MARR; a MARR's
    TYPE, when present and non-empty, is CIVIL or RELIGIOUS, in any case;
    each MARR has at most one DATE and at most one PLAC; at most one MARR of
    each supported TYPE. */
module Family {
  import opened Wrappers
  import opened Text
  import opened Tree
  import opened Findings

  const Civil := "CIVIL"
  const Religious := "RELIGIOUS"

  /** A MARR TYPE the program accepts. */
  predicate Supported(typ: string) {
    typ == Civil || typ == Religious
  }

  /** The WIFE/HUSB rule. */
  function SpouseFindings(fam: Node): (r: seq<Finding>)
    ensures |r| <= 2
  {
    var w := Count(fam, "WIFE");
    var h := Count(fam, "HUSB");
    (if w > 1 then [WifeRepeated(w)] else [])
    + (if h > 1 then [HusbRepeated(h)] else [])
    + (if w == 0 && h == 0 then [SpouseMissing] else [])
  }

  /** The first node of `cs` tagged `tag`: the loop over the children that
      stops at the first match. */
  function FirstTagged(cs: seq<Node>, tag: string): (r: Option<Node>)
    ensures r.Some? ==> r.value in cs && r.value.tag == tag
    ensures r.None? ==> forall c :: c in cs ==> c.tag != tag
  {
    if |cs| == 0 then None
    else if cs[0].tag == tag then Some(cs[0])
    else FirstTagged(cs[1..], tag)
  }

  /** Stopping the loop at the first match picks the head of the filtered list. */
  lemma {:induction false} FirstTaggedIsHead(cs: seq<Node>, tag: string)
    ensures FirstTagged(cs, tag)
            == if |Tagged(cs, tag)| > 0 then Some(Tagged(cs, tag)[0]) else None
  {
    if |cs| > 0 && cs[0].tag != tag {
      FirstTaggedIsHead(cs[1..], tag);
    }
  }

  /** The MARR's TYPE: the upper-cased value of its first TYPE child, `None`
      without one. */
  function MarrType(marr: Node): (r: Option<string>)
    ensures r.Some? ==> NoLower(r.value)
  {
    match FirstTagged(marr.children, "TYPE")
    case None => None
    case Some(ch) => Some(Upper(ch.value))
  }

  /** A MARR has a TYPE exactly when some child is tagged TYPE. */
  lemma MarrTypeIff(marr: Node)
    ensures MarrType(marr).Some? <==> HasChild(marr, "TYPE")
  {
  }

  /** The TYPE rule for the `index`-th MARR: an absent or empty TYPE passes,
      a supported one is tallied elsewhere, any other is reported. */
  function TypeFindings(marr: Node, index: nat): (r: seq<Finding>)
    ensures |r| <= 1
  {
    match MarrType(marr)
    case None => []
    case Some(typ) =>
      if typ != "" && !Supported(typ) then [MarrBadType(index, typ)] else []
  }

  /** All findings about the `index`-th MARR: its TYPE, then its DATE and its
      PLAC count. */
  function MarrOne(marr: Node, index: nat): (r: seq<Finding>)
    ensures |r| <= 3
  {
    TypeFindings(marr, index)
    + (if Count(marr, "DATE") > 1 then [MarrPartRepeated(index, "DATE", Count(marr, "DATE"))] else [])
    + (if Count(marr, "PLAC") > 1 then [MarrPartRepeated(index, "PLAC", Count(marr, "PLAC"))] else [])
  }

  /** The per-MARR findings of the MARRs from position `i` (from 0) on: the
      loop over `enumerate(marr_nodes, 1)`, so the MARR at position `i` is
      reported as number `i + 1`. */
  function MarrFindings(marrs: seq<Node>, i: nat): (r: seq<Finding>)
    requires i <= |marrs|
    ensures |r| <= 3 * (|marrs| - i)
    decreases |marrs| - i
  {
    if i == |marrs| then [] else MarrOne(marrs[i], i + 1) + MarrFindings(marrs, i + 1)
  }

  /** `type_counts[typ]`: the number of MARRs whose TYPE is `typ`. */
  function Tally(marrs: seq<Node>, typ: string): (n: nat)
    ensures n <= |marrs|
  {
    if |marrs| == 0 then 0
    else (if MarrType(marrs[0]) == Some(typ) then 1 else 0) + Tally(marrs[1..], typ)
  }

  function TallyFindings(marrs: seq<Node>): (r: seq<Finding>)
    ensures forall f :: f in r ==> f.TypeTallyExceeded? && Supported(f.typ)
  {
    var c := Tally(marrs, Civil);
    var g := Tally(marrs, Religious);
    (if c > 1 then [TypeTallyExceeded(Civil, c)] else [])
    + (if g > 1 then [TypeTallyExceeded(Religious, g)] else [])
  }

  /** The MARR children of a family, in order. */
  function Marrs(fam: Node): (r: seq<Node>)
    ensures |r| == Count(fam, "MARR")
    ensures forall m :: m in r <==> m in fam.children && m.tag == "MARR"
  {
    assert forall m :: m in Tagged(fam.children, "MARR") <==> m in fam.children && m.tag == "MARR" by {
      forall m
        ensures m in Tagged(fam.children, "MARR") <==> m in fam.children && m.tag == "MARR"
      {
        TaggedMembers(fam.children, "MARR", m);
      }
    }
    Tagged(fam.children, "MARR")
  }

  /** The MARR list keeps document order: the MARR child at position `j` is
      entry number `p` (from 0), where `p` is the number of MARR children
      before it, so `enumerate(marr_nodes, 1)` reports it as MARR `p + 1`. */
  lemma MarrsInOrder(fam: Node, j: nat)
    requires j < |fam.children| && fam.children[j].tag == "MARR"
    ensures |Tagged(fam.children[..j], "MARR")| < |Marrs(fam)|
    ensures Marrs(fam)[|Tagged(fam.children[..j], "MARR")|] == fam.children[j]
  {
    TaggedAt(fam.children, "MARR", j);
  }

  /** `validate_family`: the spouse rule, the MARR count, each MARR in order,
      then the tallies. */
  function Validate(fam: Node): (r: seq<Finding>)
    ensures |r| <= 3 + 3 * Count(fam, "MARR") + 2
  {
    var marrs := Marrs(fam);
    SpouseFindings(fam)
    + (if |marrs| > 2 then [MarrTooMany(|marrs|)] else [])
    + MarrFindings(marrs, 0)
    + TallyFindings(marrs)
  }

  /** Where a finding of each kind can come from in `Validate`. */
  lemma Sources(fam: Node, f: Finding)
    ensures f in Validate(fam) <==>
              || f in SpouseFindings(fam)
              || (|Marrs(fam)| > 2 && f == MarrTooMany(|Marrs(fam)|))
              || f in MarrFindings(Marrs(fam), 0)
              || f in TallyFindings(Marrs(fam))
  {
  }

  /** A finding of another kind is not among the per-MARR findings. */
  lemma NotPerMarr(fam: Node, f: Finding)
    requires !f.MarrBadType? && !f.MarrPartRepeated?
    ensures f !in MarrFindings(Marrs(fam), 0)
  {
    if f in MarrFindings(Marrs(fam), 0) {
      MarrFindingsOwner(Marrs(fam), 0, f);
    }
  }

  /** `validate_family` reports family findings only. */
  lemma ValidateKinds(fam: Node, f: Finding)
    requires f in Validate(fam)
    ensures IsFamilyFinding(f)
  {
    Sources(fam, f);
    if f in MarrFindings(Marrs(fam), 0) {
      MarrFindingsOwner(Marrs(fam), 0, f);
    }
  }

  lemma WifeRepeatedIff(fam: Node, k: nat)
    ensures WifeRepeated(k) in Validate(fam) <==> k == Count(fam, "WIFE") && k > 1
  {
    Sources(fam, WifeRepeated(k));
    NotPerMarr(fam, WifeRepeated(k));
  }

  lemma HusbRepeatedIff(fam: Node, k: nat)
    ensures HusbRepeated(k) in Validate(fam) <==> k == Count(fam, "HUSB") && k > 1
  {
    Sources(fam, HusbRepeated(k));
    NotPerMarr(fam, HusbRepeated(k));
  }

  /** The spouse finding is raised exactly when the family has no WIFE and no
      HUSB child. */
  lemma SpouseMissingIff(fam: Node)
    ensures SpouseMissing in Validate(fam) <==> !HasChild(fam, "WIFE") && !HasChild(fam, "HUSB")
  {
    Sources(fam, SpouseMissing);
    NotPerMarr(fam, SpouseMissing);
    HasChildIffCount(fam, "WIFE");
    HasChildIffCount(fam, "HUSB");
  }

  lemma MarrTooManyIff(fam: Node, k: nat)
    ensures MarrTooMany(k) in Validate(fam) <==> k == Count(fam, "MARR") && k > 2
  {
    Sources(fam, MarrTooMany(k));
    NotPerMarr(fam, MarrTooMany(k));
  }

  /** Every finding about one MARR carries that MARR's position. */
  lemma MarrOneIndex(marr: Node, index: nat, f: Finding)
    requires f in MarrOne(marr, index)
    ensures (f.MarrBadType? || f.MarrPartRepeated?) && f.index == index
  {
  }

  /** A per-MARR finding belongs to the MARR its number names. */
  lemma {:induction false} MarrFindingsOwner(marrs: seq<Node>, i: nat, f: Finding)
    requires i <= |marrs| && f in MarrFindings(marrs, i)
    ensures && (f.MarrBadType? || f.MarrPartRepeated?)
            && i < f.index <= |marrs|
            && f in MarrOne(marrs[f.index - 1], f.index)
    decreases |marrs| - i
  {
    if f in MarrOne(marrs[i], i + 1) {
      MarrOneIndex(marrs[i], i + 1, f);
    } else {
      MarrFindingsOwner(marrs, i + 1, f);
    }
  }

  /** The findings from MARR `i` on: that MARR's, then the rest's. */
  lemma MarrFindingsCons(marrs: seq<Node>, i: nat)
    requires i < |marrs|
    ensures MarrFindings(marrs, i) == MarrOne(marrs[i], i + 1) + MarrFindings(marrs, i + 1)
  {
  }

  /** Every finding of a MARR at position `j` is among the per-MARR findings
      from any earlier position on. */
  lemma {:induction false} MarrFindingsHas(marrs: seq<Node>, i: nat, j: nat, f: Finding)
    requires i <= j < |marrs| && f in MarrOne(marrs[j], j + 1)
    ensures f in MarrFindings(marrs, i)
  {
    assert f in MarrFindings(marrs, j) by {
      MarrFindingsCons(marrs, j);
    }
    var m := j;
    while m > i
      invariant i <= m <= j
      invariant f in MarrFindings(marrs, m)
    {
      assert f in MarrFindings(marrs, m - 1) by {
        MarrFindingsCons(marrs, m - 1);
      }
      m := m - 1;
    }
  }

  /** A per-MARR finding belongs to the MARR its number names, and to no
      other. */
  lemma MarrFindingsAt(marrs: seq<Node>, i: nat, f: Finding)
    requires i <= |marrs|
    ensures f in MarrFindings(marrs, i)
            <==> && (f.MarrBadType? || f.MarrPartRepeated?)
                 && i < f.index <= |marrs|
                 && f in MarrOne(marrs[f.index - 1], f.index)
  {
    if f in MarrFindings(marrs, i) {
      MarrFindingsOwner(marrs, i, f);
    }
    MarrFindingsNamed(marrs, i, f);
  }

  /** A finding of the MARR its number names is among the per-MARR findings. */
  lemma MarrFindingsNamed(marrs: seq<Node>, i: nat, f: Finding)
    requires i <= |marrs|
    ensures && (f.MarrBadType? || f.MarrPartRepeated?)
            && i < f.index <= |marrs|
            && f in MarrOne(marrs[f.index - 1], f.index)
            ==> f in MarrFindings(marrs, i)
  {
    if && (f.MarrBadType? || f.MarrPartRepeated?)
       && i < f.index <= |marrs|
       && f in MarrOne(marrs[f.index - 1], f.index) {
      MarrFindingsHas(marrs, i, f.index - 1, f);
    }
  }

  /** A MARR's TYPE is reported exactly when it is present, non-empty after
      upper-casing, and neither CIVIL nor RELIGIOUS. */
  lemma MarrOneBadIff(marr: Node, index: nat, typ: string)
    ensures MarrBadType(index, typ) in MarrOne(marr, index)
            <==> MarrType(marr) == Some(typ) && typ != "" && !Supported(typ)
  {
  }

  /** A MARR's DATE or PLAC is reported exactly when it occurs more than
      once, with the number of occurrences. */
  lemma MarrOnePartIff(marr: Node, index: nat, part: string, k: nat)
    ensures MarrPartRepeated(index, part, k) in MarrOne(marr, index)
            <==> (part == "DATE" || part == "PLAC") && k == Count(marr, part) && k > 1
  {
  }

  /** A finding carrying a MARR number is reported exactly when that number
      names one of the family's MARRs, counted from 1, and the rules for that
      single MARR produce it: the findings of one MARR never depend on the
      others, nor on how many MARRs there are. */
  lemma IndexedIff(fam: Node, f: Finding)
    requires f.MarrBadType? || f.MarrPartRepeated?
    ensures f in Validate(fam) <==> 1 <= f.index <= |Marrs(fam)| && f in MarrOne(Marrs(fam)[f.index - 1], f.index)
  {
    var marrs := Marrs(fam);
    Sources(fam, f);
    MarrFindingsAt(marrs, 0, f);
  }

  /** A supported TYPE is reported when more than one MARR has it; no other
      tally is ever reported. */
  lemma TypeTallyExceededIff(fam: Node, typ: string, k: nat)
    ensures TypeTallyExceeded(typ, k) in Validate(fam)
            <==> Supported(typ) && k == Tally(Marrs(fam), typ) && k > 1
  {
    Sources(fam, TypeTallyExceeded(typ, k));
    NotPerMarr(fam, TypeTallyExceeded(typ, k));
  }

  /** No MARR is counted under both supported TYPEs. */
  lemma {:induction false} TalliesBounded(marrs: seq<Node>)
    ensures Tally(marrs, Civil) + Tally(marrs, Religious) <= |marrs|
    decreases |marrs|
  {
    if |marrs| > 0 {
      TalliesBounded(marrs[1..]);
    }
  }

  /** An excess of a supported TYPE needs at least two MARRs, so it can come
      with or without the MARR-count finding. */
  lemma TallyNeedsTwo(fam: Node, typ: string, k: nat)
    requires TypeTallyExceeded(typ, k) in Validate(fam)
    ensures Count(fam, "MARR") >= 2
  {
    TypeTallyExceededIff(fam, typ, k);
  }

  /** An empty TYPE value neither raises a finding nor counts toward a tally. */
  lemma EmptyTypeIgnored(marr: Node, index: nat, typ: string)
    requires MarrType(marr) == Some("")
    ensures MarrBadType(index, typ) !in MarrOne(marr, index)
    ensures !Supported(MarrType(marr).value)
  {
  }

  /** The TYPE of a MARR is its first TYPE child's value, upper-cased, so
      the rules compare it without regard to case. */
  lemma MarrTypeOfFirst(marr: Node)
    ensures MarrType(marr)
            == if Count(marr, "TYPE") > 0 then Some(Upper(Tagged(marr.children, "TYPE")[0].value)) else None
  {
    FirstTaggedIsHead(marr.children, "TYPE");
  }

  /** Which rule of `validate_family` a finding comes from, numbered in the
      order the program applies the rules. */
  function Rule(f: Finding): nat {
    match f
    case WifeRepeated(_) => 0
    case HusbRepeated(_) => 1
    case SpouseMissing => 2
    case MarrTooMany(_) => 3
    case MarrBadType(_, _) => 4
    case MarrPartRepeated(_, _, _) => 4
    case TypeTallyExceeded(_, _) => 5
    case _ => 6
  }

  /** The MARR a per-MARR finding is about; 0 for the other findings. */
  function MarrNumber(f: Finding): nat {
    if f.MarrBadType? || f.MarrPartRepeated? then f.index else 0
  }

  /** The order among findings of one rule and one MARR: TYPE, DATE, PLAC;
      and CIVIL before RELIGIOUS among the tallies. */
  function Within(f: Finding): nat {
    match f
    case MarrPartRepeated(_, part, _) => if part == "DATE" then 1 else 2
    case TypeTallyExceeded(typ, _) => if typ == Civil then 0 else 1
    case _ => 0
  }

  /** `f` is reported before `g`: by rule, then by MARR number, then within
      one MARR or among the tallies. */
  predicate Before(f: Finding, g: Finding) {
    || Rule(f) < Rule(g)
    || (Rule(f) == Rule(g) && MarrNumber(f) < MarrNumber(g))
    || (Rule(f) == Rule(g) && MarrNumber(f) == MarrNumber(g) && Within(f) < Within(g))
  }

  /** Every finding comes strictly before every later one; in particular no
      finding is reported twice. */
  predicate Ordered(r: seq<Finding>) {
    forall i, j :: 0 <= i < j < |r| ==> Before(r[i], r[j])
  }

  lemma ConcatOrdered(a: seq<Finding>, b: seq<Finding>)
    requires Ordered(a) && Ordered(b)
    requires forall x, y :: x in a && y in b ==> Before(x, y)
    ensures Ordered(a + b)
  {
    forall i, j | 0 <= i < j < |a + b|
      ensures Before((a + b)[i], (a + b)[j])
    {
      if j < |a| {
        assert (a + b)[i] == a[i] && (a + b)[j] == a[j];
      } else if i >= |a| {
        assert (a + b)[i] == b[i - |a|] && (a + b)[j] == b[j - |a|];
      } else {
        assert (a + b)[i] == a[i] && a[i] in a;
        assert (a + b)[j] == b[j - |a|] && b[j - |a|] in b;
      }
    }
  }

  /** WIFE, then HUSB, then the missing spouses. */
  lemma SpouseOrdered(fam: Node)
    ensures Ordered(SpouseFindings(fam))
  {
    var w := Count(fam, "WIFE");
    var h := Count(fam, "HUSB");
    var a := if w > 1 then [WifeRepeated(w)] else [];
    var b := if h > 1 then [HusbRepeated(h)] else [];
    var c := if w == 0 && h == 0 then [SpouseMissing] else [];
    ConcatOrdered(a, b);
    ConcatOrdered(a + b, c);
  }

  /** One MARR's findings: TYPE, then DATE, then PLAC. */
  lemma MarrOneOrdered(marr: Node, index: nat)
    ensures Ordered(MarrOne(marr, index))
  {
    var a := TypeFindings(marr, index);
    var d := Count(marr, "DATE");
    var p := Count(marr, "PLAC");
    var b := if d > 1 then [MarrPartRepeated(index, "DATE", d)] else [];
    var c := if p > 1 then [MarrPartRepeated(index, "PLAC", p)] else [];
    assert forall f :: f in a ==> f.MarrBadType? && f.index == index;
    ConcatOrdered(a, b);
    ConcatOrdered(a + b, c);
  }

  /** A concatenation is ordered when its parts are and every rule of the
      first part comes before every rule of the second. */
  lemma RulesOrdered(a: seq<Finding>, b: seq<Finding>, k: nat)
    requires Ordered(a) && Ordered(b)
    requires forall x :: x in a ==> Rule(x) < k
    requires forall y :: y in b ==> Rule(y) >= k
    ensures Ordered(a + b)
  {
    ConcatOrdered(a, b);
  }

  /** The findings of one MARR come before those of every later MARR. */
  lemma {:induction false} MarrOneFirst(marrs: seq<Node>, i: nat, x: Finding, y: Finding)
    requires i < |marrs|
    requires x in MarrOne(marrs[i], i + 1) && y in MarrFindings(marrs, i + 1)
    ensures Before(x, y)
  {
    MarrOneIndex(marrs[i], i + 1, x);
    MarrFindingsOwner(marrs, i + 1, y);
    assert Rule(x) == 4 && Rule(y) == 4 && MarrNumber(x) < MarrNumber(y);
  }

  /** The MARRs are reported in their order in the record. */
  lemma {:induction false} MarrFindingsOrdered(marrs: seq<Node>, i: nat)
    requires i <= |marrs|
    ensures Ordered(MarrFindings(marrs, i))
    decreases |marrs| - i
  {
    if i < |marrs| {
      var one := MarrOne(marrs[i], i + 1);
      var rest := MarrFindings(marrs, i + 1);
      MarrOneOrdered(marrs[i], i + 1);
      MarrFindingsOrdered(marrs, i + 1);
      forall x, y | x in one && y in rest
        ensures Before(x, y)
      {
        MarrOneFirst(marrs, i, x, y);
      }
      ConcatOrdered(one, rest);
    }
  }

  /** The spouse rule comes before the MARR count. */
  lemma SpouseRules(fam: Node)
    ensures forall f :: f in SpouseFindings(fam) ==> Rule(f) <= 2
  {
  }

  /** Every per-MARR finding belongs to the MARR rule. */
  lemma MarrFindingsRule(marrs: seq<Node>)
    ensures forall f :: f in MarrFindings(marrs, 0) ==> Rule(f) == 4
  {
    forall f | f in MarrFindings(marrs, 0)
      ensures Rule(f) == 4
    {
      MarrFindingsOwner(marrs, 0, f);
    }
  }

  /** The CIVIL tally, then the RELIGIOUS one. */
  lemma TallyOrdered(marrs: seq<Node>)
    ensures Ordered(TallyFindings(marrs))
  {
    var c := Tally(marrs, Civil);
    var g := Tally(marrs, Religious);
    var a := if c > 1 then [TypeTallyExceeded(Civil, c)] else [];
    var b := if g > 1 then [TypeTallyExceeded(Religious, g)] else [];
    assert Civil != Religious;
    ConcatOrdered(a, b);
  }

  /** `validate_family` reports the spouse rule first (WIFE, HUSB, missing
      spouses), then the MARR count, then every MARR in record order with
      its TYPE, DATE and PLAC findings in that order, then the CIVIL and the
      RELIGIOUS tally; and it never reports a finding twice. */
  lemma ValidateOrdered(fam: Node)
    ensures Ordered(Validate(fam))
  {
    var marrs := Marrs(fam);
    var s := SpouseFindings(fam);
    var t := if |marrs| > 2 then [MarrTooMany(|marrs|)] else [];
    var m := MarrFindings(marrs, 0);
    var y := TallyFindings(marrs);
    SpouseRules(fam);
    MarrFindingsRule(marrs);
    assert Ordered(s + t) by {
      SpouseOrdered(fam);
      RulesOrdered(s, t, 3);
    }
    assert Ordered(s + t + m) by {
      MarrFindingsOrdered(marrs, 0);
      RulesOrdered(s + t, m, 4);
    }
    assert forall x :: x in s + t + m ==> Rule(x) <= 4;
    assert Ordered(s + t + m + y) by {
      TallyOrdered(marrs);
      RulesOrdered(s + t + m, y, 5);
    }
  }
}

=== FILE: findings.dfy ===
/** What the checker reports. The program writes one German sentence per
    finding; each sentence is a template filled in with a tag, a count or a
    position, and the datatype keeps exactly those fill-ins. */
module Findings {

  datatype Finding =
      /** An INDI event (`BIRT` or `DEAT`) occurs `count` times. */
    | EventRepeated(event: string, count: nat)
      /** One instance of an INDI event has `count` sub-elements `part`
          (`DATE` or `PLAC`). */
    | EventPartRepeated(event: string, part: string, count: nat)
      /** `count` NAME elements carry no TYPE. */
    | UntypedNamesRepeated(count: nat)
      /** The only untyped NAME is not the first NAME. */
    | UntypedNameNotFirst
    | WifeRepeated(count: nat)
    | HusbRepeated(count: nat)
      /** A family with neither WIFE nor HUSB. */
    | SpouseMissing
      /** More than two MARR elements. */
    | MarrTooMany(count: nat)
      /** The `index`-th MARR (counting from 1) has a TYPE outside CIVIL and
          RELIGIOUS; `typ` is that TYPE upper-cased. */
    | MarrBadType(index: nat, typ: string)
      /** The `index`-th MARR has `count` sub-elements `part`. */
    | MarrPartRepeated(index: nat, part: string, count: nat)
      /** `count` MARR elements have the supported TYPE `typ`. */
    | TypeTallyExceeded(typ: string, count: nat)

  /** The findings `validate_individual` can produce. */
  predicate IsIndividualFinding(f: Finding) {
    f.EventRepeated? || f.EventPartRepeated? || f.UntypedNamesRepeated? || f.UntypedNameNotFirst?
  }

  /** The findings `validate_family` can produce. */
  predicate IsFamilyFinding(f: Finding) {
    !IsIndividualFinding(f)
  }
}

=== FILE: forest.dfy ===
/** A second, declarative reading of what `parse_gedcom` builds, and the proof
    that the stack algorithm builds exactly that.

    Read the matched lines as blocks: the first line owns the maximal run of
    following lines that are strictly deeper than it, and those lines are
    split into blocks the same way to give its children; the block after the
    run starts the next tree. The parser's roots are the trees of this forest
    whose value is a record kind, in order, and walking the forest in
    pre-order gives back every matched line in input order. */
module Forest {
  import opened Wrappers
  import opened Tree
  import opened Parser

  /** The nodes the matched lines construct, in input order. */
  function Nodes(lines: seq<Option<RawLine>>): (ns: seq<Node>)
    ensures |ns| <= |lines|
  {
    if |lines| == 0 then []
    else
      match lines[0]
      case None => Nodes(lines[1..])
      case Some(raw) => [NewNode(raw.level, raw.tag, raw.value)] + Nodes(lines[1..])
  }

  /** Every constructed node starts without children, at a level of at least 0. */
  lemma {:induction false} NodesFresh(lines: seq<Option<RawLine>>)
    ensures FreshFrom(Nodes(lines), 0)
    decreases |lines|
  {
    if |lines| > 0 {
      NodesFresh(lines[1..]);
      if lines[0].Some? {
        var raw := lines[0].value;
        var n := NewNode(raw.level, raw.tag, raw.value);
        FreshCons(n, Nodes(lines[1..]), 0);
      }
    }
  }

  lemma FreshCons(n: Node, tail: seq<Node>, level: nat)
    requires n.level >= level && n.children == [] && FreshFrom(tail, level)
    ensures FreshFrom([n] + tail, level)
  {
    assert forall i :: 1 <= i <= |tail| ==> ([n] + tail)[i] == tail[i - 1];
  }

  /** The length of the longest prefix of `s` lying strictly deeper than `level`. */
  function Extent(s: seq<Node>, level: nat): (k: nat)
    ensures k <= |s|
    ensures forall i :: 0 <= i < k ==> s[i].level > level
    ensures k == |s| || s[k].level <= level
  {
    if |s| == 0 || s[0].level <= level then 0 else 1 + Extent(s[1..], level)
  }

  /** The block forest of a sequence of childless nodes. */
  function Build(s: seq<Node>): seq<Node>
    decreases |s|
  {
    if |s| == 0 then []
    else
      var k := Extent(s[1..], s[0].level);
      [Node(s[0].level, s[0].tag, s[0].value, Build(s[1..1 + k]))] + Build(s[1 + k..])
  }

  /** The trees whose value names a record kind, in order. */
  function Records(ts: seq<Node>): (r: seq<Node>)
    ensures forall i :: 0 <= i < |r| ==> IsRecordKind(r[i].value)
  {
    if |ts| == 0 then []
    else (if IsRecordKind(ts[0].value) then [ts[0]] else []) + Records(ts[1..])
  }

  /** The lines of a forest, in pre-order, each without its children. */
  function Lines(f: seq<Node>): seq<Node>
    decreases f
  {
    if |f| == 0 then [] else NodeLines(f[0]) + Lines(f[1..])
  }

  function NodeLines(n: Node): seq<Node>
    decreases n
  {
    [n.(children := [])] + Lines(n.children)
  }

  /** The parser's fold restricted to matched lines. */
  function InsertAll(st: State, ns: seq<Node>): State
    decreases |ns|
  {
    if |ns| == 0 then st else InsertAll(Insert(st, ns[0]), ns[1..])
  }

  /** Hands a sequence of finished trees on, one after the other. */
  function EmitAll(st: State, ts: seq<Node>): State
    decreases |ts|
  {
    if |ts| == 0 then st else EmitAll(Emit(st, ts[0]), ts[1..])
  }

  /** Nothing on the stack is at `level` or deeper: its top is shallower. */
  predicate Below(st: State, level: nat) {
    |st.stack| == 0 || Top(st).level < level
  }

  /** Skipping unmatched lines and feeding the rest gives the same state. */
  lemma {:induction false} FeedIsInsertAll(st: State, lines: seq<Option<RawLine>>)
    ensures Feed(st, lines) == InsertAll(st, Nodes(lines))
    decreases |lines|
  {
    if |lines| > 0 {
      FeedIsInsertAll(Step(st, lines[0]), lines[1..]);
    }
  }

  lemma {:induction false} InsertAllAppend(st: State, a: seq<Node>, b: seq<Node>)
    ensures InsertAll(st, a + b) == InsertAll(InsertAll(st, a), b)
    decreases |a|
  {
    if |a| == 0 {
      assert a + b == b;
    } else {
      assert (a + b)[1..] == a[1..] + b;
      InsertAllAppend(Insert(st, a[0]), a[1..], b);
    }
  }

  /** Popping down to a level and then to a shallower one is popping down to
      the shallower one. */
  lemma {:induction false} PopWhileTwice(st: State, deep: nat, shallow: nat)
    requires shallow <= deep
    ensures PopWhile(PopWhile(st, deep), shallow) == PopWhile(st, shallow)
    decreases |st.stack|
  {
    if |st.stack| > 0 && Top(st).level >= deep {
      PopWhileTwice(Pop(st), deep, shallow);
    }
  }

  /** What happens to the next line depends only on the state after popping
      down to its level. */
  lemma InsertAllSameStart(x: State, y: State, ns: seq<Node>)
    requires |ns| > 0
    requires PopWhile(x, ns[0].level) == PopWhile(y, ns[0].level)
    ensures InsertAll(x, ns) == InsertAll(y, ns)
  {
    assert Insert(x, ns[0]) == Insert(y, ns[0]);
  }

  /** Handing trees to an open node appends them to its children. */
  lemma {:induction false} EmitAllIntoOpen(st: State, open: Node, ts: seq<Node>)
    ensures EmitAll(State(st.roots, st.stack + [open]), ts)
         == State(st.roots, st.stack + [open.(children := open.children + ts)])
    decreases |ts|
  {
    if |ts| == 0 {
      assert open.children + ts == open.children;
    } else {
      var s0 := State(st.roots, st.stack + [open]);
      var open' := open.(children := open.children + [ts[0]]);
      assert (st.stack + [open])[..|st.stack|] == st.stack;
      assert Emit(s0, ts[0]) == State(st.roots, st.stack + [open']);
      EmitAllIntoOpen(st, open', ts[1..]);
      assert open.children + [ts[0]] + ts[1..] == open.children + ts;
    }
  }

  /** With nothing open, handing trees on keeps exactly the records. */
  lemma {:induction false} EmitAllAtTop(roots: seq<Node>, ts: seq<Node>)
    ensures EmitAll(State(roots, []), ts) == State(roots + Records(ts), [])
    decreases |ts|
  {
    if |ts| == 0 {
      assert roots + [] == roots;
    } else {
      var head := if IsRecordKind(ts[0].value) then [ts[0]] else [];
      assert Emit(State(roots, []), ts[0]) == State(roots + head, []);
      EmitAllAtTop(roots + head, ts[1..]);
      assert roots + head + Records(ts[1..]) == roots + (head + Records(ts[1..]));
    }
  }

  /** The nodes of `s` are childless and none is shallower than `level`. */
  predicate FreshFrom(s: seq<Node>, level: nat) {
    forall i :: 0 <= i < |s| ==> s[i].level >= level && s[i].children == []
  }

  /** The first line of `s` and the two runs after it: its block, all deeper
      than it, and the rest, which starts no deeper than it. */
  lemma SplitBlock(s: seq<Node>, level: nat, inner: seq<Node>, rest: seq<Node>)
    requires |s| > 0 && FreshFrom(s, level)
    requires var k := Extent(s[1..], s[0].level); inner == s[1..1 + k] && rest == s[1 + k..]
    ensures s == [s[0]] + inner + rest
    ensures s[0].level >= level && s[0].children == []
    ensures FreshFrom(inner, s[0].level + 1)
    ensures FreshFrom(rest, level)
    ensures |rest| > 0 ==> level <= rest[0].level <= s[0].level
  {
    var k := Extent(s[1..], s[0].level);
    SplitInner(s, level, k);
    SplitRest(s, level, k);
  }

  lemma SplitInner(s: seq<Node>, level: nat, k: nat)
    requires |s| > 0 && FreshFrom(s, level) && k == Extent(s[1..], s[0].level)
    ensures FreshFrom(s[1..1 + k], s[0].level + 1)
  {
    var tail := s[1..];
    assert forall i :: 0 <= i < k ==> s[1..1 + k][i] == tail[i] == s[1 + i];
  }

  lemma SplitRest(s: seq<Node>, level: nat, k: nat)
    requires |s| > 0 && FreshFrom(s, level) && k == Extent(s[1..], s[0].level)
    ensures FreshFrom(s[1 + k..], level)
    ensures 1 + k < |s| ==> s[1 + k..][0].level <= s[0].level
  {
    var tail := s[1..];
    assert forall i :: 1 + k <= i < |s| ==> s[1 + k..][i - 1 - k] == s[i];
    assert 1 + k < |s| ==> s[1 + k..][0] == tail[k];
  }

  /** A first line that is deeper than the top of the stack closes nothing and
      is opened on top of it. */
  lemma FirstLineOpens(st: State, h: Node, inner: seq<Node>, rest: seq<Node>)
    requires Below(st, h.level)
    ensures InsertAll(st, [h] + inner + rest)
            == InsertAll(InsertAll(State(st.roots, st.stack + [h]), inner), rest)
  {
    assert PopWhile(st, h.level) == st;
    assert ([h] + inner + rest)[1..] == inner + rest;
    InsertAllAppend(State(st.roots, st.stack + [h]), inner, rest);
  }

  /** The open node closes once a line at its level or shallower arrives, or
      at the end, and is handed on with the finished children of its block. */
  lemma CloseBlock(x: State, st: State, t: Node, level: nat)
    requires PopWhile(x, t.level + 1) == State(st.roots, st.stack + [t])
    requires level <= t.level && Below(st, level)
    ensures PopWhile(x, level) == Emit(st, t)
  {
    var st2 := State(st.roots, st.stack + [t]);
    PopWhileTwice(x, t.level + 1, level);
    assert st2.stack[..|st.stack|] == st.stack;
    assert Pop(st2) == Emit(st, t);
    assert PopWhile(Emit(st, t), level) == Emit(st, t);
  }

  /** An open line that receives finished trees ends up with exactly those
      trees as its children. */
  lemma OpenBlock(st: State, h: Node, kids: seq<Node>)
    requires h.children == []
    ensures EmitAll(State(st.roots, st.stack + [h]), kids)
            == State(st.roots, st.stack + [Node(h.level, h.tag, h.value, kids)])
  {
    EmitAllIntoOpen(st, h, kids);
    assert h.children + kids == kids;
  }

  /** A line, once opened, receives the block forest of the lines it owns as
      its children. */
  lemma {:induction false} OpenFirst(st: State, h: Node, inner: seq<Node>)
    requires Below(st, h.level) && h.children == [] && FreshFrom(inner, h.level + 1)
    ensures PopWhile(InsertAll(State(st.roots, st.stack + [h]), inner), h.level + 1)
            == State(st.roots, st.stack + [Node(h.level, h.tag, h.value, Build(inner))])
    decreases |inner| + 1, 0
  {
    var st1 := State(st.roots, st.stack + [h]);
    assert Below(st1, h.level + 1);
    InsertAllBuildsForest(st1, inner, h.level + 1);
    OpenBlock(st, h, Build(inner));
  }

  /** Once the first tree of a run is finished under the top of the stack,
      the next line, or the end of the run, closes it and the rest of the run
      carries on from the stack as it was. */
  lemma {:induction false} CloseThenContinue(st: State, x: State, t: Node, rest: seq<Node>, level: nat)
    requires Below(st, level) && level <= t.level
    requires PopWhile(x, t.level + 1) == State(st.roots, st.stack + [t])
    requires FreshFrom(rest, level) && (|rest| > 0 ==> rest[0].level <= t.level)
    ensures PopWhile(InsertAll(x, rest), level) == EmitAll(Emit(st, t), Build(rest))
    decreases |rest| + 1, 0
  {
    var st3 := Emit(st, t);
    if |rest| == 0 {
      CloseBlock(x, st, t, level);
    } else {
      var next := rest[0].level;
      CloseBlock(x, st, t, next);
      assert PopWhile(st3, next) == st3;
      InsertAllSameStart(x, st3, rest);
      InsertAllBuildsForest(st3, rest, level);
    }
  }

  /** The first line opened, its block fed and the rest of the run fed
      after it: the block closes into one tree and the rest carries on. */
  lemma {:induction false} BlockThenRest(st: State, h: Node, inner: seq<Node>, rest: seq<Node>, level: nat)
    requires Below(st, level) && level <= h.level && h.children == []
    requires FreshFrom(inner, h.level + 1) && FreshFrom(rest, level)
    requires |rest| > 0 ==> rest[0].level <= h.level
    ensures PopWhile(InsertAll(InsertAll(State(st.roots, st.stack + [h]), inner), rest), level)
            == EmitAll(Emit(st, Node(h.level, h.tag, h.value, Build(inner))), Build(rest))
    decreases |inner| + |rest| + 1, 1
  {
    OpenFirst(st, h, inner);
    CloseThenContinue(st, InsertAll(State(st.roots, st.stack + [h]), inner),
                      Node(h.level, h.tag, h.value, Build(inner)), rest, level);
  }

  /** One block: a first line `h` that fits on the stack, the lines it owns
      and the rest of the run. */
  lemma {:induction false} InsertBlock(st: State, h: Node, inner: seq<Node>, rest: seq<Node>, level: nat)
    requires Below(st, level) && level <= h.level && h.children == []
    requires FreshFrom(inner, h.level + 1) && FreshFrom(rest, level)
    requires |rest| > 0 ==> rest[0].level <= h.level
    ensures PopWhile(InsertAll(st, [h] + inner + rest), level)
            == EmitAll(st, [Node(h.level, h.tag, h.value, Build(inner))] + Build(rest))
    decreases |inner| + |rest| + 1, 2
  {
    var t := Node(h.level, h.tag, h.value, Build(inner));
    FirstLineOpens(st, h, inner, rest);
    BlockThenRest(st, h, inner, rest, level);
    var f := [t] + Build(rest);
    assert f[0] == t && f[1..] == Build(rest);
  }

  /** The heart of the correspondence: feeding a run of lines no shallower
      than `level` onto a stack whose top is shallower, then popping down to
      `level`, leaves the stack as it was, with the block forest of the run
      handed on in order. */
  lemma {:induction false} InsertAllBuildsForest(st: State, s: seq<Node>, level: nat)
    requires Below(st, level) && FreshFrom(s, level)
    ensures PopWhile(InsertAll(st, s), level) == EmitAll(st, Build(s))
    decreases |s|, 3
  {
    if |s| == 0 {
      assert PopWhile(st, level) == st;
    } else {
      var k := Extent(s[1..], s[0].level);
      var inner := s[1..1 + k];
      var rest := s[1 + k..];
      SplitBlock(s, level, inner, rest);
      InsertBlock(st, s[0], inner, rest, level);
    }
  }

  /** `parse_gedcom` returns the record trees of the block forest of its
      matched lines, in order. */
  lemma ParseIsBlockForest(lines: seq<Option<RawLine>>)
    ensures Parse(lines) == Records(Build(Nodes(lines)))
  {
    FeedIsInsertAll(Start, lines);
    NodesFresh(lines);
    InsertAllBuildsForest(Start, Nodes(lines), 0);
    EmitAllAtTop([], Build(Nodes(lines)));
    assert [] + Records(Build(Nodes(lines))) == Records(Build(Nodes(lines)));
  }

  /** One block of the pre-order walk: the first line, then its subtree's
      lines, then those of the trees after it. */
  lemma {:induction false} BlockLines(h: Node, inner: seq<Node>, rest: seq<Node>)
    requires h.children == []
    requires Lines(Build(inner)) == inner && Lines(Build(rest)) == rest
    ensures Lines([Node(h.level, h.tag, h.value, Build(inner))] + Build(rest)) == [h] + inner + rest
  {
    var t := Node(h.level, h.tag, h.value, Build(inner));
    var f := [t] + Build(rest);
    assert f[0] == t && f[1..] == Build(rest);
    assert t.(children := []) == h;
    assert Lines(f) == NodeLines(t) + Lines(Build(rest));
  }

  /** No line is lost or reordered: the pre-order walk of the block forest
      gives back the lines it was built from. */
  lemma {:induction false} BuildKeepsLines(s: seq<Node>)
    requires FreshFrom(s, 0)
    ensures Lines(Build(s)) == s
    decreases |s|
  {
    if |s| > 0 {
      var k := Extent(s[1..], s[0].level);
      var inner := s[1..1 + k];
      var rest := s[1 + k..];
      SplitBlock(s, 0, inner, rest);
      BuildKeepsLines(inner);
      BuildKeepsLines(rest);
      BlockLines(s[0], inner, rest);
    }
  }
}

=== FILE: individual.dfy ===
/** `validate_individual`: the rules for one INDI record. BIRT and DEAT occur
    at most once and every instance of them has at most one DATE and at most
    one PLAC; at most one NAME is untyped (has no TYPE sub-element), and if
    one is, it is the first NAME. */
module Individual {
  import opened Tree
  import opened Findings
  import opened Seqs

  const Events: seq<string> := ["BIRT", "DEAT"]

  /** The duplicate DATE and PLAC findings of one instance `e` of `event`. */
  function PartFindings(event: string, e: Node): (r: seq<Finding>)
    ensures forall f :: f in r ==> f.EventPartRepeated? && f.event == event
    ensures |r| == 2 ==> r[0].part == "DATE" && r[1].part == "PLAC"
  {
    (if Count(e, "DATE") > 1 then [EventPartRepeated(event, "DATE", Count(e, "DATE"))] else [])
    + (if Count(e, "PLAC") > 1 then [EventPartRepeated(event, "PLAC", Count(e, "PLAC"))] else [])
  }

  /** The duplicate-part findings of every instance, instance by instance. */
  function InstanceFindings(event: string, evs: seq<Node>): (r: seq<Finding>)
    ensures forall f :: f in r ==> f.EventPartRepeated? && f.event == event
  {
    if |evs| == 0 then [] else PartFindings(event, evs[0]) + InstanceFindings(event, evs[1..])
  }

  /** `check_event(tag)`: the repetition of the event itself, then the parts
      of each of its instances, whether or not the event is repeated. */
  function EventFindings(ind: Node, event: string): (r: seq<Finding>)
    ensures forall f :: f in r ==> (f.EventRepeated? || f.EventPartRepeated?) && f.event == event
  {
    var evs := Tagged(ind.children, event);
    (if |evs| > 1 then [EventRepeated(event, |evs|)] else []) + InstanceFindings(event, evs)
  }

  /** The positions, from `i` on, of the NAME elements without a TYPE. */
  function UntypedFrom(names: seq<Node>, i: nat): (ps: seq<nat>)
    requires i <= |names|
    ensures forall k :: 0 <= k < |ps| ==> i <= ps[k] < |names| && !HasChild(names[ps[k]], "TYPE")
    ensures forall k :: 0 <= k < |ps| - 1 ==> ps[k] < ps[k + 1]
    decreases |names| - i
  {
    if i == |names| then []
    else if HasChild(names[i], "TYPE") then UntypedFrom(names, i + 1)
    else [i] + UntypedFrom(names, i + 1)
  }

  /** The untyped NAME list, as positions into the NAME list: Python keeps the
      node objects themselves, and positions are what its identity test
      `name_nodes[0] != untyped[0]` compares. */
  function Untyped(names: seq<Node>): (ps: seq<nat>)
    ensures forall k :: 0 <= k < |ps| ==> ps[k] < |names| && !HasChild(names[ps[k]], "TYPE")
    ensures forall k :: 0 <= k < |ps| - 1 ==> ps[k] < ps[k + 1]
    ensures forall j :: 0 <= j < |names| && !HasChild(names[j], "TYPE") ==> j in ps
  {
    UntypedComplete(names);
    UntypedFrom(names, 0)
  }

  /** Every untyped NAME from `i` on is listed. */
  lemma {:induction false} UntypedFromComplete(names: seq<Node>, i: nat, j: nat)
    requires i <= j < |names| && !HasChild(names[j], "TYPE")
    ensures j in UntypedFrom(names, i)
    decreases j - i
  {
    if i < j {
      UntypedFromComplete(names, i + 1, j);
    }
  }

  lemma UntypedComplete(names: seq<Node>)
    ensures forall j :: 0 <= j < |names| && !HasChild(names[j], "TYPE") ==> j in UntypedFrom(names, 0)
  {
    forall j | 0 <= j < |names| && !HasChild(names[j], "TYPE")
      ensures j in UntypedFrom(names, 0)
    {
      UntypedFromComplete(names, 0, j);
    }
  }

  /** The NAME rule: several untyped NAMEs are one finding; otherwise a single
      untyped NAME that is not the first NAME is one. */
  function NameFindings(ind: Node): (r: seq<Finding>)
    ensures |r| <= 1
    ensures forall f :: f in r ==> f.UntypedNamesRepeated? || f.UntypedNameNotFirst?
  {
    var names := Tagged(ind.children, "NAME");
    var ps := Untyped(names);
    if |ps| > 1 then [UntypedNamesRepeated(|ps|)]
    else if |ps| == 1 && ps[0] != 0 then [UntypedNameNotFirst]
    else []
  }

  /** `validate_individual`: BIRT, then DEAT, then the NAME rule. */
  function Validate(ind: Node): (r: seq<Finding>)
    ensures forall f :: f in r ==> IsIndividualFinding(f)
  {
    EventFindings(ind, "BIRT") + EventFindings(ind, "DEAT") + NameFindings(ind)
  }

  /** The part findings of one instance are exactly its duplicated DATE and
      PLAC counts. */
  lemma PartFindingsIff(event: string, e: Node, part: string, k: nat)
    ensures EventPartRepeated(event, part, k) in PartFindings(event, e)
            <==> (part == "DATE" || part == "PLAC") && k == Count(e, part) && k > 1
  {
  }

  lemma {:induction false} InstanceFindingsIff(event: string, evs: seq<Node>, f: Finding)
    ensures f in InstanceFindings(event, evs) <==> exists e :: e in evs && f in PartFindings(event, e)
    decreases |evs|
  {
    if |evs| > 0 {
      InstanceFindingsIff(event, evs[1..], f);
      if f in InstanceFindings(event, evs[1..]) {
        var e :| e in evs[1..] && f in PartFindings(event, e);
        assert e in evs;
      }
      if exists e :: e in evs && f in PartFindings(event, e) {
        var e :| e in evs && f in PartFindings(event, e);
        if e != evs[0] {
          assert e in evs[1..];
        }
      }
    }
  }

  /** The instance findings of two runs of instances are those of the first
      run followed by those of the second: every instance contributes its
      own findings, in instance order, however alike they are. */
  lemma {:induction false} InstanceFindingsAppend(event: string, a: seq<Node>, b: seq<Node>)
    ensures InstanceFindings(event, a + b) == InstanceFindings(event, a) + InstanceFindings(event, b)
    decreases |a|
  {
    if |a| == 0 {
      assert a + b == b;
    } else {
      assert (a + b)[1..] == a[1..] + b;
      InstanceFindingsAppend(event, a[1..], b);
      AppendAssoc(PartFindings(event, a[0]), InstanceFindings(event, a[1..]), InstanceFindings(event, b));
    }
  }

  /** A single instance contributes exactly its own part findings. */
  lemma InstanceFindingsSingle(event: string, e: Node)
    ensures InstanceFindings(event, [e]) == PartFindings(event, e)
  {
    assert [e][1..] == [];
  }

  /** How many of the instances `evs` have exactly `k` sub-elements `part`. */
  function Instances(evs: seq<Node>, part: string, k: nat): (n: nat)
    ensures n <= |evs|
  {
    if |evs| == 0 then 0
    else (if Count(evs[0], part) == k then 1 else 0) + Instances(evs[1..], part, k)
  }

  /** One instance reports a duplicated part at most once. */
  lemma PartFindingsCount(event: string, e: Node, part: string, k: nat)
    ensures multiset(PartFindings(event, e))[EventPartRepeated(event, part, k)]
            == if (part == "DATE" || part == "PLAC") && k > 1 && Count(e, part) == k then 1 else 0
  {
  }

  /** A duplicated part with count `k` is reported once for every instance
      that has it `k` times. */
  lemma {:induction false} InstanceFindingsCount(event: string, evs: seq<Node>, part: string, k: nat)
    ensures multiset(InstanceFindings(event, evs))[EventPartRepeated(event, part, k)]
            == if (part == "DATE" || part == "PLAC") && k > 1 then Instances(evs, part, k) else 0
    decreases |evs|
  {
    if |evs| > 0 {
      PartFindingsCount(event, evs[0], part, k);
      InstanceFindingsCount(event, evs[1..], part, k);
    }
  }

  /** The number of rows `EVENT.PART kommt mehrfach vor (k)` in a record's
      report: one per instance of the event with `k` DATEs (or PLACs), each
      adding one to the error total, whether or not the event is repeated. */
  lemma EventPartRepeatedCount(ind: Node, event: string, part: string, k: nat)
    requires event in Events
    ensures multiset(Validate(ind))[EventPartRepeated(event, part, k)]
            == if (part == "DATE" || part == "PLAC") && k > 1
               then Instances(Tagged(ind.children, event), part, k) else 0
  {
    var f := EventPartRepeated(event, part, k);
    ValidateCount(ind, f);
    EventFindingsCount(ind, event, "BIRT", part, k);
    EventFindingsCount(ind, event, "DEAT", part, k);
    InstanceFindingsCount(event, Tagged(ind.children, event), part, k);
  }

  /** The number of rows `EVENT kommt mehrfach vor (k)` in a record's report:
      one when BIRT or DEAT occurs `k > 1` times, and none otherwise. */
  lemma EventRepeatedCount(ind: Node, event: string, k: nat)
    ensures multiset(Validate(ind))[EventRepeated(event, k)]
            == if (event == "BIRT" || event == "DEAT") && k == Count(ind, event) && k > 1 then 1 else 0
  {
    var f := EventRepeated(event, k);
    ValidateCount(ind, f);
    EventFindingsRepeatCount(ind, "BIRT", event, k);
    EventFindingsRepeatCount(ind, "DEAT", event, k);
  }

  /** One event's findings hold its own repetition at most once, and no
      other event's. */
  lemma EventFindingsRepeatCount(ind: Node, g: string, event: string, k: nat)
    ensures multiset(EventFindings(ind, g))[EventRepeated(event, k)]
            == if g == event && k == Count(ind, g) && k > 1 then 1 else 0
  {
    var f := EventRepeated(event, k);
    var evs := Tagged(ind.children, g);
    var head := if |evs| > 1 then [EventRepeated(g, |evs|)] else [];
    assert multiset(EventFindings(ind, g))[f] == multiset(head)[f] + multiset(InstanceFindings(g, evs))[f];
    assert f !in InstanceFindings(g, evs);
  }

  /** How often an event finding occurs in the whole report of an individual:
      the NAME rule never produces one. */
  lemma ValidateCount(ind: Node, f: Finding)
    requires f.EventRepeated? || f.EventPartRepeated?
    ensures multiset(Validate(ind))[f]
            == multiset(EventFindings(ind, "BIRT"))[f] + multiset(EventFindings(ind, "DEAT"))[f]
  {
    var n := NameFindings(ind);
    assert Validate(ind) == EventFindings(ind, "BIRT") + EventFindings(ind, "DEAT") + n;
    assert f !in n;
  }

  /** Only the instances of `event` itself report its duplicated parts. */
  lemma EventFindingsCount(ind: Node, event: string, g: string, part: string, k: nat)
    ensures multiset(EventFindings(ind, g))[EventPartRepeated(event, part, k)]
            == if g == event then multiset(InstanceFindings(event, Tagged(ind.children, event)))[EventPartRepeated(event, part, k)]
               else 0
  {
    var f := EventPartRepeated(event, part, k);
    var evs := Tagged(ind.children, g);
    var head := if |evs| > 1 then [EventRepeated(g, |evs|)] else [];
    assert multiset(EventFindings(ind, g))[f] == multiset(head)[f] + multiset(InstanceFindings(g, evs))[f];
    if g != event {
      assert f !in InstanceFindings(g, evs);
    }
  }

  /** The event itself is reported exactly when it occurs more than once, with
      the number of occurrences. */
  lemma EventRepeatedIff(ind: Node, event: string, k: nat)
    requires event in Events
    ensures EventRepeated(event, k) in Validate(ind) <==> k == Count(ind, event) && k > 1
  {
    var f := EventRepeated(event, k);
    var other := if event == "BIRT" then "DEAT" else "BIRT";
    assert f !in EventFindings(ind, other);
    assert f !in NameFindings(ind);
    assert f !in InstanceFindings(event, Tagged(ind.children, event));
  }

  /** A duplicated DATE or PLAC is reported for every instance of BIRT and DEAT
      that has it, also when the event occurs only once, and nothing else is
      reported as a duplicated part. */
  lemma EventPartRepeatedIff(ind: Node, event: string, part: string, k: nat)
    requires event in Events
    ensures EventPartRepeated(event, part, k) in Validate(ind)
            <==> && (part == "DATE" || part == "PLAC") && k > 1
                 && exists e :: e in ind.children && e.tag == event && Count(e, part) == k
  {
    var f := EventPartRepeated(event, part, k);
    var other := if event == "BIRT" then "DEAT" else "BIRT";
    var evs := Tagged(ind.children, event);
    assert f !in EventFindings(ind, other);
    assert f !in NameFindings(ind);
    assert f in Validate(ind) <==> f in InstanceFindings(event, evs);
    InstanceFindingsIff(event, evs, f);
    if f in Validate(ind) {
      var e :| e in evs && f in PartFindings(event, e);
      TaggedMembers(ind.children, event, e);
      PartFindingsIff(event, e, part, k);
    }
    if && (part == "DATE" || part == "PLAC") && k > 1
       && exists e :: e in ind.children && e.tag == event && Count(e, part) == k {
      var e :| e in ind.children && e.tag == event && Count(e, part) == k;
      TaggedMembers(ind.children, event, e);
      PartFindingsIff(event, e, part, k);
    }
  }

  /** Several untyped NAMEs are reported with their number. */
  lemma UntypedNamesRepeatedIff(ind: Node, k: nat)
    ensures UntypedNamesRepeated(k) in Validate(ind)
            <==> k == |Untyped(Tagged(ind.children, "NAME"))| && k > 1
  {
    assert UntypedNamesRepeated(k) !in EventFindings(ind, "BIRT") + EventFindings(ind, "DEAT");
  }

  /** With exactly one untyped NAME, the position test fails exactly when the
      first NAME carries a TYPE. */
  lemma UntypedNameNotFirstIff(ind: Node)
    ensures var names := Tagged(ind.children, "NAME");
            UntypedNameNotFirst in Validate(ind)
            <==> |Untyped(names)| == 1 && HasChild(names[0], "TYPE")
  {
    var names := Tagged(ind.children, "NAME");
    var ps := Untyped(names);
    assert UntypedNameNotFirst !in EventFindings(ind, "BIRT") + EventFindings(ind, "DEAT");
    if |ps| == 1 && |names| > 0 && !HasChild(names[0], "TYPE") {
      UntypedFromComplete(names, 0, 0);
    }
  }

  /** Comparing the first NAME with the untyped one by value, instead of by
      identity as the program does, gives the same verdict. */
  lemma IdentityIsValue(names: seq<Node>)
    requires |Untyped(names)| == 1
    ensures (Untyped(names)[0] != 0) <==> (names[0] != names[Untyped(names)[0]])
  {
  }

  /** The two NAME findings never come together. */
  lemma NameFindingsExclusive(ind: Node)
    ensures !(UntypedNameNotFirst in Validate(ind)
              && exists k :: UntypedNamesRepeated(k) in Validate(ind))
  {
    if UntypedNameNotFirst in Validate(ind) {
      UntypedNameNotFirstIff(ind);
      forall k | UntypedNamesRepeated(k) in Validate(ind)
        ensures false
      {
        UntypedNamesRepeatedIff(ind, k);
      }
    }
  }

  /** Which step of the program a finding comes from, in the order it takes
      them: the BIRT repetition, the BIRT parts, the DEAT repetition, the DEAT
      parts, the NAME rule. */
  function Rank(f: Finding): nat {
    match f
    case EventRepeated(e, _) => if e == "BIRT" then 0 else 2
    case EventPartRepeated(e, _, _) => if e == "BIRT" then 1 else 3
    case _ => 4
  }

  predicate Ordered(r: seq<Finding>) {
    forall i, j :: 0 <= i < j < |r| ==> Rank(r[i]) <= Rank(r[j])
  }

  lemma SameRankOrdered(r: seq<Finding>, k: nat)
    requires forall f :: f in r ==> Rank(f) == k
    ensures Ordered(r)
  {
    assert forall i :: 0 <= i < |r| ==> r[i] in r;
  }

  lemma ConcatOrdered(a: seq<Finding>, b: seq<Finding>, k: nat)
    requires Ordered(a) && Ordered(b)
    requires forall f :: f in a ==> Rank(f) <= k
    requires forall f :: f in b ==> Rank(f) >= k
    ensures Ordered(a + b)
  {
    forall i, j | 0 <= i < j < |a + b|
      ensures Rank((a + b)[i]) <= Rank((a + b)[j])
    {
      if j < |a| {
        assert (a + b)[i] == a[i] && (a + b)[j] == a[j];
      } else if i >= |a| {
        assert (a + b)[i] == b[i - |a|] && (a + b)[j] == b[j - |a|];
      } else {
        assert (a + b)[i] == a[i] && a[i] in a;
        assert (a + b)[j] == b[j - |a|] && b[j - |a|] in b;
      }
    }
  }

  /** An event's repetition comes before the part findings of its instances. */
  lemma EventOrdered(ind: Node, event: string, k: nat)
    requires event == "BIRT" || event == "DEAT"
    requires k == (if event == "BIRT" then 0 else 2)
    ensures Ordered(EventFindings(ind, event))
    ensures forall f :: f in EventFindings(ind, event) ==> k <= Rank(f) <= k + 1
  {
    var evs := Tagged(ind.children, event);
    var head := if |evs| > 1 then [EventRepeated(event, |evs|)] else [];
    var parts := InstanceFindings(event, evs);
    assert EventFindings(ind, event) == head + parts;
    SameRankOrdered(head, k);
    SameRankOrdered(parts, k + 1);
    ConcatOrdered(head, parts, k + 1);
  }

  /** The BIRT repetition comes first, then the BIRT parts, the DEAT
      repetition, the DEAT parts, and last the NAME finding. */
  lemma ValidateOrdered(ind: Node)
    ensures Ordered(Validate(ind))
  {
    var b := EventFindings(ind, "BIRT");
    var d := EventFindings(ind, "DEAT");
    var n := NameFindings(ind);
    EventOrdered(ind, "BIRT", 0);
    EventOrdered(ind, "DEAT", 2);
    SameRankOrdered(n, 4);
    ConcatOrdered(b, d, 2);
    ConcatOrdered(b + d, n, 4);
  }
}

=== FILE: parser.dfy ===
/** The line-to-tree parser (`parse_gedcom`): a left fold over the matched
    lines with an explicit stack of open nodes.

    The program appends a node to its parent's child list the moment it is
    read and keeps adding to it through the shared object. Here the stack
    holds partially built nodes instead, and a node is handed to the node
    below it when it is popped; the bottom node, when popped, becomes a root
    if its value is a record kind. Children close in the order they were
    opened, so parents receive them, and the root list receives its records,
    in line order. */
module Parser {
  import opened Wrappers
  import opened Text
  import opened Tree

  /** The three groups of the line pattern: the level digits, the tag token
      and the rest of the line ("" when the optional group is absent). */
  datatype RawLine = RawLine(level: nat, tag: string, value: string)

  /** `roots` holds the records closed so far; `stack` the open nodes,
      shallowest first, each with the children closed under it so far. */
  datatype State = State(roots: seq<Node>, stack: seq<Node>)

  const Start := State([], [])

  function Top(st: State): Node
    requires |st.stack| > 0
  {
    st.stack[|st.stack| - 1]
  }

  /** Levels strictly increase from the bottom of the stack to its top. */
  predicate Ordered(stack: seq<Node>) {
    forall i, j :: 0 <= i < j < |stack| ==> stack[i].level < stack[j].level
  }

  predicate AllRecords(roots: seq<Node>) {
    forall i :: 0 <= i < |roots| ==> IsRecordKind(roots[i].value)
  }

  predicate AllWellNested(ns: seq<Node>) {
    forall i :: 0 <= i < |ns| ==> WellNested(ns[i])
  }

  /** What holds of the parser's state after every line: the stack is
      ordered, every open node's children sit deeper than it, and every root
      is a well-nested record. */
  predicate Good(st: State) {
    && Ordered(st.stack)
    && AllWellNested(st.stack)
    && AllRecords(st.roots)
    && AllWellNested(st.roots)
  }

  /** The frames keep their levels, in the same order. */
  predicate SameLevels(a: seq<Node>, b: seq<Node>) {
    |a| == |b| && forall i :: 0 <= i < |a| ==> a[i].level == b[i].level
  }

  /** Hands the finished node `n` on: to the open node on top of the stack,
      as its last child, or, with nothing open, to the root list when its
      value is a record kind; a top-level node of any other kind is dropped. */
  function Emit(st: State, n: Node): (r: State)
    ensures |r.stack| == |st.stack|
    ensures |st.stack| > 0 ==> && r.roots == st.roots
                               && Top(r).level == Top(st).level
                               && Top(r).children == Top(st).children + [n]
    ensures |st.stack| == 0 ==> && r.stack == []
                                && r.roots == st.roots + (if IsRecordKind(n.value) then [n] else [])
  {
    if |st.stack| == 0 then
      if IsRecordKind(n.value) then State(st.roots + [n], []) else st
    else
      var top := Top(st);
      State(st.roots, st.stack[..|st.stack| - 1] + [top.(children := top.children + [n])])
  }

  /** Attaching a well-nested node below a shallower parent, or keeping a
      record at the top, keeps the state good. */
  lemma EmitKeepsGood(st: State, n: Node)
    requires Good(st) && WellNested(n)
    requires |st.stack| == 0 || n.level > Top(st).level
    ensures Good(Emit(st, n))
  {
    if |st.stack| > 0 {
      var top := Top(st);
      assert WellNested(top.(children := top.children + [n]));
    }
  }

  /** Closes the top of the stack: `stack.pop()`, with the popped node handed
      to the node now on top. */
  function Pop(st: State): (r: State)
    requires |st.stack| > 0
    ensures |r.stack| == |st.stack| - 1
  {
    Emit(State(st.roots, st.stack[..|st.stack| - 1]), Top(st))
  }

  /** The loop `while stack and stack[-1].level >= level: stack.pop()`: it
      stops at the first open node shallower than `level`. */
  function PopWhile(st: State, level: nat): (r: State)
    ensures |r.stack| <= |st.stack|
    ensures |r.stack| == 0 || Top(r).level < level
    decreases |st.stack|
  {
    if |st.stack| > 0 && Top(st).level >= level then PopWhile(Pop(st), level) else st
  }

  /** Handing a node on changes no level on the stack. */
  lemma EmitKeepsLevels(st: State, n: Node)
    ensures SameLevels(st.stack, Emit(st, n).stack)
  {
    var r := Emit(st, n);
    if |st.stack| > 0 {
      assert forall i :: 0 <= i < |st.stack| - 1 ==> r.stack[i] == st.stack[i];
    }
  }

  /** What the popping loop leaves is the bottom of the stack it started
      from, level for level. */
  lemma {:induction false} PopWhileKeepsBottom(st: State, level: nat)
    ensures SameLevels(st.stack[..|PopWhile(st, level).stack|], PopWhile(st, level).stack)
    decreases |st.stack|
  {
    if |st.stack| > 0 && Top(st).level >= level {
      var n := |st.stack| - 1;
      var p := Pop(st);
      EmitKeepsLevels(State(st.roots, st.stack[..n]), Top(st));
      PopWhileKeepsBottom(p, level);
      var m := |PopWhile(p, level).stack|;
      assert st.stack[..n][..m] == st.stack[..m];
    }
  }

  /** Everything the popping loop removes is at `level` or deeper. */
  lemma {:induction false} PopWhileRemovesDeeper(st: State, level: nat)
    ensures forall i :: |PopWhile(st, level).stack| <= i < |st.stack| ==> st.stack[i].level >= level
    decreases |st.stack|
  {
    if |st.stack| > 0 && Top(st).level >= level {
      var n := |st.stack| - 1;
      var p := Pop(st);
      EmitKeepsLevels(State(st.roots, st.stack[..n]), Top(st));
      PopWhileRemovesDeeper(p, level);
      assert forall i :: 0 <= i < n ==> p.stack[i].level == st.stack[i].level;
    }
  }

  /** Closing nodes keeps the stack ordered and every attachment deeper than
      its parent. */
  lemma {:induction false} PopWhileKeepsGood(st: State, level: nat)
    requires Good(st)
    ensures Good(PopWhile(st, level))
    decreases |st.stack|
  {
    if |st.stack| > 0 && Top(st).level >= level {
      EmitKeepsGood(State(st.roots, st.stack[..|st.stack| - 1]), Top(st));
      PopWhileKeepsGood(Pop(st), level);
    }
  }

  /** One matched line: close every open node at the new node's level or
      deeper, then open the new node. */
  function Insert(st: State, n: Node): (r: State)
    ensures |r.stack| > 0 && Top(r) == n
  {
    var p := PopWhile(st, n.level);
    State(p.roots, p.stack + [n])
  }

  lemma InsertKeepsGood(st: State, n: Node)
    requires Good(st) && WellNested(n)
    ensures Good(Insert(st, n))
  {
    PopWhileKeepsGood(st, n.level);
  }

  /** One input line: a line that does not match the pattern is skipped;
      a matched one ends up, freshly constructed, on top of the stack. */
  function Step(st: State, line: Option<RawLine>): (r: State)
    ensures line.None? ==> r == st
    ensures line.Some? ==> |r.stack| > 0
                           && Top(r) == NewNode(line.value.level, line.value.tag, line.value.value)
  {
    match line
    case None => st
    case Some(raw) => Insert(st, NewNode(raw.level, raw.tag, raw.value))
  }

  /** Closing nodes only ever adds to the root list. */
  lemma {:induction false} PopWhileKeepsRoots(st: State, level: nat)
    ensures st.roots <= PopWhile(st, level).roots
    decreases |st.stack|
  {
    if |st.stack| > 0 && Top(st).level >= level {
      PopWhileKeepsRoots(Pop(st), level);
    }
  }

  lemma StepKeepsRoots(st: State, line: Option<RawLine>)
    ensures st.roots <= Step(st, line).roots
  {
    if line.Some? {
      PopWhileKeepsRoots(st, line.value.level);
    }
  }

  /** The loop over the lines. A record, once closed, stays in the root
      list unchanged; lines that all fail to match change nothing; and after
      a matched line something is open. */
  function Feed(st: State, lines: seq<Option<RawLine>>): (r: State)
    ensures st.roots <= r.roots
    ensures (forall i :: 0 <= i < |lines| ==> lines[i].None?) ==> r == st
    ensures (exists i :: 0 <= i < |lines| && lines[i].Some?) ==> |r.stack| > 0
    decreases |lines|
  {
    if |lines| == 0 then st
    else
      StepKeepsRoots(st, lines[0]);
      Feed(Step(st, lines[0]), lines[1..])
  }

  /** After every line the stack's levels strictly increase from bottom to
      top, every child sits deeper than its parent, and every root is a
      record. */
  lemma {:induction false} FeedKeepsGood(st: State, lines: seq<Option<RawLine>>)
    requires Good(st)
    ensures Good(Feed(st, lines))
    decreases |lines|
  {
    if |lines| > 0 {
      match lines[0] {
        case None =>
        case Some(raw) => InsertKeepsGood(st, NewNode(raw.level, raw.tag, raw.value));
      }
      FeedKeepsGood(Step(st, lines[0]), lines[1..]);
    }
  }

  /** `parse_gedcom`: feeds every line, then closes whatever is still open,
      which is the same popping loop with level 0. The roots are records,
      and every node in them sits deeper than its parent. */
  function Parse(lines: seq<Option<RawLine>>): (roots: seq<Node>)
    ensures forall i :: 0 <= i < |roots| ==> IsRecordKind(roots[i].value)
    ensures forall i :: 0 <= i < |roots| ==> WellNested(roots[i])
    ensures lines == [] ==> roots == []
  {
    var fed := Feed(Start, lines);
    FeedKeepsGood(Start, lines);
    PopWhileKeepsGood(fed, 0);
    PopWhile(fed, 0).roots
  }

  /** A level-0 line closes every open node before it is placed: it always
      starts a new top-level block. */
  lemma LevelZeroEmptiesStack(st: State, raw: RawLine)
    requires raw.level == 0
    ensures Step(st, Some(raw)).stack == [NewNode(0, raw.tag, raw.value)]
  {
  }
}

=== FILE: report.dfy ===
/** The record loop of `main`: every root is dispatched on its record kind to
    its validator, each finding becomes a report row `(record kind, record
    id, finding)`, and the records of each kind and the findings are counted
    for the summary. */
module Report {
  import opened Wrappers
  import opened Tree
  import opened Findings
  import opened Parser
  import Individual
  import Family
  import opened Seqs

  /** One row of the report: the record's kind, its identifier (the root's
      tag, `@I1@` say) and one finding. */
  datatype Row = Row(recType: string, recId: string, finding: Finding)

  /** The rows, the number of INDI and FAM records seen, and the running
      error total, which the program keeps apart from the rows. */
  datatype Summary = Summary(rows: seq<Row>, individuals: nat, families: nat, errors: nat)

  const Empty := Summary([], 0, 0, 0)

  /** The validator the record kind selects; any other root has none. */
  function Validate(node: Node): (r: seq<Finding>)
    ensures !IsRecordKind(node.value) ==> r == []
    ensures node.value == "INDI" ==> forall f :: f in r ==> IsIndividualFinding(f)
    ensures node.value == "INDI" ==> r == Individual.Validate(node)
    ensures node.value == "FAM" ==> r == Family.Validate(node)
  {
    if node.value == "INDI" then Individual.Validate(node)
    else if node.value == "FAM" then Family.Validate(node)
    else []
  }

  /** The rows of one record: one per finding, in order. */
  function RowsOf(node: Node, fs: seq<Finding>): (rows: seq<Row>)
    ensures |rows| == |fs|
    ensures forall i :: 0 <= i < |fs| ==> rows[i] == Row(node.value, node.tag, fs[i])
  {
    if |fs| == 0 then [] else [Row(node.value, node.tag, fs[0])] + RowsOf(node, fs[1..])
  }

  /** One pass of the loop body: count the record, validate it and append
      its rows; a root of another kind is skipped (`continue`). */
  function Visit(s: Summary, node: Node): (r: Summary)
    ensures !IsRecordKind(node.value) ==> r == s
    ensures s.rows <= r.rows && r.errors - s.errors == |r.rows| - |s.rows|
  {
    if node.value == "INDI" then
      var errs := Individual.Validate(node);
      Summary(s.rows + RowsOf(node, errs), s.individuals + 1, s.families, s.errors + |errs|)
    else if node.value == "FAM" then
      var errs := Family.Validate(node);
      Summary(s.rows + RowsOf(node, errs), s.individuals, s.families + 1, s.errors + |errs|)
    else s
  }

  /** The loop over the roots: it only appends rows, and it adds exactly as
      much to the error total as it appends rows. */
  function Run(s: Summary, roots: seq<Node>): (r: Summary)
    ensures s.rows <= r.rows && r.errors - s.errors == |r.rows| - |s.rows|
    ensures s.individuals <= r.individuals && s.families <= r.families
    decreases |roots|
  {
    if |roots| == 0 then s else Run(Visit(s, roots[0]), roots[1..])
  }

  /** The loop over all roots, from an empty report. */
  function Check(roots: seq<Node>): (r: Summary)
    ensures r.errors == |r.rows|
  {
    Run(Empty, roots)
  }

  /** The whole pipeline on the lines of one file. */
  function CheckLines(lines: seq<Option<RawLine>>): (r: Summary)
    ensures r.errors == |r.rows|
    ensures lines == [] ==> r == Empty
  {
    Check(Parse(lines))
  }

  /** How many roots have record kind `kind`. */
  function KindCount(roots: seq<Node>, kind: string): nat {
    if |roots| == 0 then 0 else (if roots[0].value == kind then 1 else 0) + KindCount(roots[1..], kind)
  }

  /** Every record's rows, record after record. */
  function AllRows(roots: seq<Node>): seq<Row> {
    if |roots| == 0 then [] else RowsOf(roots[0], Validate(roots[0])) + AllRows(roots[1..])
  }

  /** One pass of the loop adds the record's rows, counts it under its kind,
      and adds its number of findings. */
  lemma VisitAdds(s: Summary, node: Node)
    ensures Visit(s, node)
            == Summary(s.rows + RowsOf(node, Validate(node)),
                       s.individuals + (if node.value == "INDI" then 1 else 0),
                       s.families + (if node.value == "FAM" then 1 else 0),
                       s.errors + |Validate(node)|)
  {
    if !IsRecordKind(node.value) {
      assert s.rows + RowsOf(node, []) == s.rows;
    }
  }

  /** The loop from any report appends every record's rows, record after
      record. */
  lemma {:induction false} RunRows(s: Summary, roots: seq<Node>)
    ensures Run(s, roots).rows == s.rows + AllRows(roots)
    decreases |roots|
  {
    if |roots| == 0 {
      assert s.rows + [] == s.rows;
    } else {
      var n := roots[0];
      var head := RowsOf(n, Validate(n));
      var v := Visit(s, n);
      assert v.rows == s.rows + head by {
        VisitAdds(s, n);
      }
      RunRows(v, roots[1..]);
      assert AllRows(roots) == head + AllRows(roots[1..]);
      AppendAssoc(s.rows, head, AllRows(roots[1..]));
    }
  }

  /** The loop from any report adds the numbers of INDI and FAM roots to the
      record counts and the number of rows it appends to the error total. */
  lemma {:induction false} RunCounts(s: Summary, roots: seq<Node>)
    ensures Run(s, roots).individuals == s.individuals + KindCount(roots, "INDI")
    ensures Run(s, roots).families == s.families + KindCount(roots, "FAM")
    ensures Run(s, roots).errors == s.errors + |AllRows(roots)|
    decreases |roots|
  {
    if |roots| > 0 {
      var n := roots[0];
      var v := Visit(s, n);
      assert && v.individuals == s.individuals + (if n.value == "INDI" then 1 else 0)
             && v.families == s.families + (if n.value == "FAM" then 1 else 0)
             && v.errors == s.errors + |RowsOf(n, Validate(n))| by {
        VisitAdds(s, n);
      }
      RunCounts(v, roots[1..]);
    }
  }

  /** The error total printed at the end is the number of report rows, and
      the two record counts are the numbers of INDI and FAM roots. */
  lemma CheckCounts(roots: seq<Node>)
    ensures Check(roots).errors == |Check(roots).rows|
    ensures Check(roots).individuals == KindCount(roots, "INDI")
    ensures Check(roots).families == KindCount(roots, "FAM")
  {
    RunRows(Empty, roots);
    RunCounts(Empty, roots);
  }

  /** Checking two runs of roots one after the other is checking them
      together: records are validated independently. */
  lemma RunAppend(s: Summary, a: seq<Node>, b: seq<Node>)
    ensures Run(s, a + b) == Run(Run(s, a), b)
    decreases |a|
  {
    if |a| == 0 {
      assert a + b == b;
    } else {
      assert (a + b)[1..] == a[1..] + b;
      RunAppend(Visit(s, a[0]), a[1..], b);
    }
  }

  /** The validator of `root`'s kind reports `f`: `validate_individual` for an
      INDI record, `validate_family` for a FAM record, none for anything else. */
  predicate Dispatched(root: Node, f: Finding) {
    || (root.value == "INDI" && f in Individual.Validate(root))
    || (root.value == "FAM" && f in Family.Validate(root))
  }

  /** Some root's validator produced the finding of `row`, and the row carries
      that root's kind and identifier. */
  predicate Produced(roots: seq<Node>, row: Row) {
    exists i :: 0 <= i < |roots| && row.recType == roots[i].value
                && row.recId == roots[i].tag && Dispatched(roots[i], row.finding)
  }

  /** Every row comes from some root. */
  lemma {:induction false} AllRowsOwner(roots: seq<Node>, row: Row)
    requires row in AllRows(roots)
    ensures Produced(roots, row)
    decreases |roots|
  {
    var n := roots[0];
    var head := RowsOf(n, Validate(n));
    if row in head {
      var j :| 0 <= j < |head| && head[j] == row;
      assert Validate(n)[j] in Validate(n);
      assert row.recType == roots[0].value && row.recId == roots[0].tag && Dispatched(roots[0], row.finding);
    } else {
      AllRowsOwner(roots[1..], row);
      var i :| 0 <= i < |roots| - 1 && row.recType == roots[1..][i].value
               && row.recId == roots[1..][i].tag && Dispatched(roots[1..][i], row.finding);
      assert roots[1..][i] == roots[i + 1];
    }
  }

  /** Every finding of one record has its row. */
  lemma RowsOfHas(node: Node, fs: seq<Finding>, f: Finding)
    requires f in fs
    ensures Row(node.value, node.tag, f) in RowsOf(node, fs)
  {
    var j :| 0 <= j < |fs| && fs[j] == f;
    assert RowsOf(node, fs)[j] == Row(node.value, node.tag, f);
  }

  /** The rows of a non-empty run of roots: the first record's, then the rest's. */
  lemma AllRowsCons(roots: seq<Node>)
    requires |roots| > 0
    ensures AllRows(roots) == RowsOf(roots[0], Validate(roots[0])) + AllRows(roots[1..])
  {
  }

  /** The rows of two runs of roots are those of the first run followed by
      those of the second. */
  lemma AllRowsAppend(a: seq<Node>, b: seq<Node>)
    ensures AllRows(a + b) == AllRows(a) + AllRows(b)
  {
    RunAppend(Empty, a, b);
    RunRows(Empty, a + b);
    RunRows(Empty, a);
    RunRows(Run(Empty, a), b);
    assert [] + AllRows(a + b) == AllRows(a + b) && [] + AllRows(a) == AllRows(a);
  }

  /** Every finding of every root has its row. */
  lemma AllRowsHas(roots: seq<Node>, k: nat, f: Finding)
    requires k < |roots| && f in Validate(roots[k])
    ensures Row(roots[k].value, roots[k].tag, f) in AllRows(roots)
  {
    var row := Row(roots[k].value, roots[k].tag, f);
    var before, after := roots[..k], roots[k..];
    assert roots == before + after;
    assert row in AllRows(after) by {
      AllRowsCons(after);
      assert after[0] == roots[k];
      RowsOfHas(roots[k], Validate(roots[k]), f);
    }
    AllRowsAppend(before, after);
  }

  /** A row is among the rows of the roots exactly when some root's validator
      produced its finding, and it carries that root's kind and identifier. */
  lemma AllRowsIff(roots: seq<Node>, row: Row)
    ensures row in AllRows(roots) <==> Produced(roots, row)
  {
    if row in AllRows(roots) {
      AllRowsOwner(roots, row);
    }
    if Produced(roots, row) {
      var i :| 0 <= i < |roots| && row.recType == roots[i].value
               && row.recId == roots[i].tag && Dispatched(roots[i], row.finding);
      AllRowsHas(roots, i, row.finding);
    }
  }

  /** A row is in the report exactly when some root's validator produced its
      finding, and it carries that root's kind and identifier. */
  lemma RowsIff(roots: seq<Node>, row: Row)
    ensures row in Check(roots).rows
            <==> exists i :: && 0 <= i < |roots| && row.recType == roots[i].value
                             && row.recId == roots[i].tag
                             && (|| (roots[i].value == "INDI" && row.finding in Individual.Validate(roots[i]))
                                 || (roots[i].value == "FAM" && row.finding in Family.Validate(roots[i])))
  {
    RunRows(Empty, roots);
    assert Check(roots).rows == AllRows(roots);
    AllRowsIff(roots, row);
  }

  /** Every row names a record kind and pairs it with a finding of that
      kind's validator. */
  lemma RowKinds(roots: seq<Node>, row: Row)
    requires row in Check(roots).rows
    ensures row.recType == "INDI" ==> IsIndividualFinding(row.finding)
    ensures row.recType == "FAM" ==> IsFamilyFinding(row.finding)
    ensures IsRecordKind(row.recType)
  {
    RowsIff(roots, row);
    var i :| && 0 <= i < |roots| && row.recType == roots[i].value
             && row.recId == roots[i].tag
             && (|| (roots[i].value == "INDI" && row.finding in Individual.Validate(roots[i]))
                 || (roots[i].value == "FAM" && row.finding in Family.Validate(roots[i])));
    if row.recType == "FAM" {
      Family.ValidateKinds(roots[i], row.finding);
    }
  }
}

=== FILE: scenarios.dfy ===
/** Concrete records and files and what the checker reports on them. */
module Scenarios {
  import opened Wrappers
  import opened Text
  import opened Tree
  import opened Findings
  import opened Parser
  import opened Forest
  import Individual
  import Family
  import opened Report
  import opened Seqs

  function Leaf(level: nat, tag: string, value: string): Node {
    Node(level, tag, value, [])
  }

  /** Two births are one finding with the count 2; without duplicated DATE or
      PLAC under either birth nothing else is reported. */
  lemma TwoBirths()
    ensures Individual.Validate(Node(0, "@I1@", "INDI", [Leaf(1, "BIRT", ""), Leaf(1, "BIRT", "")]))
            == [EventRepeated("BIRT", 2)]
  {
    var ind := Node(0, "@I1@", "INDI", [Leaf(1, "BIRT", ""), Leaf(1, "BIRT", "")]);
    assert Tagged(ind.children, "BIRT") == ind.children;
    assert Tagged(ind.children, "DEAT") == [];
    assert Tagged(ind.children, "NAME") == [];
  }

  /** A single birth with two dates: the part rule fires although the event
      itself is not repeated. */
  lemma OneBirthTwoDates()
    ensures Individual.Validate(Node(0, "@I1@", "INDI",
              [Node(1, "BIRT", "", [Leaf(2, "DATE", "1900"), Leaf(2, "DATE", "1901")])]))
            == [EventPartRepeated("BIRT", "DATE", 2)]
  {
    var birt := Node(1, "BIRT", "", [Leaf(2, "DATE", "1900"), Leaf(2, "DATE", "1901")]);
    var ind := Node(0, "@I1@", "INDI", [birt]);
    assert Tagged(ind.children, "BIRT") == [birt];
    assert Tagged(birt.children, "DATE") == birt.children;
    assert Tagged(birt.children, "PLAC") == [];
    assert Tagged(ind.children, "DEAT") == [];
    assert Tagged(ind.children, "NAME") == [];
  }

  /** A typed NAME followed by an untyped one: the untyped NAME is not first. */
  lemma TypedThenUntypedName()
    ensures Individual.Validate(Node(0, "@I1@", "INDI",
              [Node(1, "NAME", "A /B/", [Leaf(2, "TYPE", "birth")]), Leaf(1, "NAME", "C /D/")]))
            == [UntypedNameNotFirst]
  {
    var typed := Node(1, "NAME", "A /B/", [Leaf(2, "TYPE", "birth")]);
    var ind := Node(0, "@I1@", "INDI", [typed, Leaf(1, "NAME", "C /D/")]);
    assert Tagged(ind.children, "NAME") == ind.children;
    assert Tagged(ind.children, "BIRT") == [];
    assert Tagged(ind.children, "DEAT") == [];
    assert HasChild(typed, "TYPE") by {
      assert typed.children[0] in typed.children;
    }
    assert !HasChild(ind.children[1], "TYPE");
    assert Individual.UntypedFrom(ind.children, 2) == [];
    assert Individual.UntypedFrom(ind.children, 1) == [1];
    assert Individual.Untyped(ind.children) == [1];
  }

  /** A family without spouses gets exactly the spouse finding; one husband
      alone satisfies the rule. */
  lemma SpouseRule()
    ensures Family.Validate(Node(0, "@F1@", "FAM", [])) == [SpouseMissing]
    ensures Family.Validate(Node(0, "@F1@", "FAM", [Leaf(1, "HUSB", "@I1@")])) == []
  {
    var fam := Node(0, "@F1@", "FAM", [Leaf(1, "HUSB", "@I1@")]);
    assert Tagged(fam.children, "HUSB") == fam.children;
    assert Tagged(fam.children, "WIFE") == [];
    assert Tagged(fam.children, "MARR") == [];
  }

  const CivilMarr := Node(1, "MARR", "", [Leaf(2, "TYPE", "CIVIL")])
  const LowerCivilMarr := Node(1, "MARR", "", [Leaf(2, "TYPE", "civil")])

  /** The TYPE is read case-insensitively. */
  lemma CivilTypes()
    ensures Family.MarrType(CivilMarr) == Some("CIVIL")
    ensures Family.MarrType(LowerCivilMarr) == Some("CIVIL")
  {
    assert Family.MarrType(CivilMarr) == Some("CIVIL") by {
      UpperOfUpper("CIVIL");
    }
    assert Upper("civil") == "CIVIL" by {
      assert Upper("civil")[0] == 'C';
      assert Upper("civil")[1] == 'I';
      assert Upper("civil")[2] == 'V';
      assert Upper("civil")[3] == 'I';
      assert Upper("civil")[4] == 'L';
    }
  }

  /** Both marriages count as CIVIL, and neither draws a finding of its own. */
  lemma CivilMarriages()
    ensures Family.Tally([CivilMarr, LowerCivilMarr], "CIVIL") == 2
    ensures Family.Tally([CivilMarr, LowerCivilMarr], "RELIGIOUS") == 0
    ensures Family.MarrFindings([CivilMarr, LowerCivilMarr], 0) == []
  {
    var m1 := CivilMarr;
    var m2 := LowerCivilMarr;
    CivilTypes();
    assert Tagged(m1.children, "DATE") == [] && Tagged(m1.children, "PLAC") == [];
    assert Tagged(m2.children, "DATE") == [] && Tagged(m2.children, "PLAC") == [];
    assert [m1, m2][1..] == [m2] && [m2][1..] == [];
  }

  /** Two civil marriages, one of them typed in lower case, exceed the CIVIL
      tally. */
  lemma TwoCivilMarriages()
    ensures Family.Validate(Node(0, "@F1@", "FAM", [Leaf(1, "HUSB", "@I1@"), CivilMarr, LowerCivilMarr]))
            == [TypeTallyExceeded("CIVIL", 2)]
  {
    var m1 := CivilMarr;
    var m2 := LowerCivilMarr;
    var fam := Node(0, "@F1@", "FAM", [Leaf(1, "HUSB", "@I1@"), m1, m2]);
    assert fam.children[1..] == [m1, m2] && [m1, m2][1..] == [m2] && [m2][1..] == [];
    assert Tagged([m2], "HUSB") == [] && Tagged([m1, m2], "HUSB") == [];
    assert Tagged([m2], "WIFE") == [] && Tagged([m1, m2], "WIFE") == [];
    assert Tagged([m2], "MARR") == [m2] && Tagged([m1, m2], "MARR") == [m1, m2];
    assert Tagged(fam.children, "HUSB") == [fam.children[0]];
    assert Tagged(fam.children, "WIFE") == [];
    assert Tagged(fam.children, "MARR") == [m1, m2];
    CivilMarriages();
  }

  const OtherMarr := Node(1, "MARR", "", [Leaf(2, "TYPE", "X")])

  /** An unknown TYPE draws a finding under the number the MARR is given. */
  lemma OtherMarrOne(index: nat)
    ensures Family.MarrType(OtherMarr) == Some("X")
    ensures Family.MarrOne(OtherMarr, index) == [MarrBadType(index, "X")]
  {
    assert Family.MarrType(OtherMarr) == Some("X") by {
      assert NoLower("X") by {
        assert "X"[0] == 'X';
      }
      UpperOfUpper("X");
    }
    assert Tagged(OtherMarr.children, "DATE") == [] && Tagged(OtherMarr.children, "PLAC") == [];
  }

  /** The second MARR is reported as number 2, and only one is CIVIL. */
  lemma CivilThenOtherFindings()
    ensures Family.MarrFindings([CivilMarr, OtherMarr], 0) == [MarrBadType(2, "X")]
    ensures Family.Tally([CivilMarr, OtherMarr], "CIVIL") == 1
    ensures Family.Tally([CivilMarr, OtherMarr], "RELIGIOUS") == 0
    ensures Family.TallyFindings([CivilMarr, OtherMarr]) == []
  {
    var m1 := CivilMarr;
    var m2 := OtherMarr;
    CivilTypes();
    OtherMarrOne(2);
    assert Tagged(m1.children, "DATE") == [] && Tagged(m1.children, "PLAC") == [];
    assert Family.MarrOne(m1, 1) == [];
    assert [m1, m2][1..] == [m2] && [m2][1..] == [];
  }

  /** A family with a husband, a civil marriage and then one of an unknown
      type. */
  const CivilThenOther := Node(0, "@F1@", "FAM", [Leaf(1, "HUSB", "@I1@"), CivilMarr, OtherMarr])

  /** Its spouse rule is satisfied and its MARRs are listed in document order. */
  lemma CivilThenOtherParts()
    ensures Family.SpouseFindings(CivilThenOther) == []
    ensures Family.Marrs(CivilThenOther) == [CivilMarr, OtherMarr]
  {
    var m1 := CivilMarr;
    var m2 := OtherMarr;
    var fam := CivilThenOther;
    assert fam.children[1..] == [m1, m2] && [m1, m2][1..] == [m2] && [m2][1..] == [];
    assert Tagged([m2], "HUSB") == [] && Tagged([m1, m2], "HUSB") == [];
    assert Tagged([m2], "WIFE") == [] && Tagged([m1, m2], "WIFE") == [];
    assert Tagged([m2], "MARR") == [m2] && Tagged([m1, m2], "MARR") == [m1, m2];
    assert Tagged(fam.children, "HUSB") == [fam.children[0]];
    assert Tagged(fam.children, "WIFE") == [];
    assert Tagged(fam.children, "MARR") == [m1, m2];
  }

  /** The unknown type is reported under the number of its MARR in document
      order, 2, and nothing else is reported. */
  lemma CivilThenOtherMarriage()
    ensures Family.Validate(CivilThenOther) == [MarrBadType(2, "X")]
  {
    CivilThenOtherParts();
    CivilThenOtherFindings();
  }

  /** Already trimmed, upper-case input is kept as it is. */
  predicate Clean(s: string) {
    IsTrimmed(s) && NoLower(s)
  }

  /** A header `head` with a SOUR sub-line, an individual `ind` with two untyped names,
      an unmatched line between them, and a family `fam` without spouses. */
  function File(head: string, ind: string, a: string, b: string, fam: string): seq<Option<RawLine>> {
    [Some(RawLine(0, head, "")),
     Some(RawLine(1, "SOUR", "")),
     Some(RawLine(0, ind, "INDI")),
     Some(RawLine(1, "NAME", a)),
     None,
     Some(RawLine(1, "NAME", b)),
     Some(RawLine(0, fam, "FAM"))]
  }

  lemma NameIsClean()
    ensures Clean("NAME") && Clean("SOUR") && IsTrimmed("INDI") && IsTrimmed("FAM")
  {
    assert forall i :: 0 <= i < 4 ==> "NAME"[i] in ['N', 'A', 'M', 'E'];
    assert forall i :: 0 <= i < 4 ==> "SOUR"[i] in ['S', 'O', 'U', 'R'];
  }

  lemma NodesSome(raw: RawLine, rest: seq<Option<RawLine>>)
    requires Clean(raw.tag) && IsTrimmed(raw.value)
    ensures Nodes([Some(raw)] + rest) == [Leaf(raw.level, raw.tag, raw.value)] + Nodes(rest)
  {
    assert ([Some(raw)] + rest)[1..] == rest;
  }

  lemma NodesNone(rest: seq<Option<RawLine>>)
    ensures Nodes([None] + rest) == Nodes(rest)
  {
    assert ([None] + rest)[1..] == rest;
  }

  /** The matched lines of the file, as nodes. */
  lemma FileNodes(head: string, ind: string, a: string, b: string, fam: string)
    requires Clean(head) && Clean(ind) && Clean(fam) && IsTrimmed(a) && IsTrimmed(b)
    ensures Nodes(File(head, ind, a, b, fam))
            == [Leaf(0, head, ""), Leaf(1, "SOUR", ""), Leaf(0, ind, "INDI"),
                Leaf(1, "NAME", a), Leaf(1, "NAME", b), Leaf(0, fam, "FAM")]
  {
    var r0, r1, r2 := RawLine(0, head, ""), RawLine(1, "SOUR", ""), RawLine(0, ind, "INDI");
    var r3, r5, r6 := RawLine(1, "NAME", a), RawLine(1, "NAME", b), RawLine(0, fam, "FAM");
    var l6: seq<Option<RawLine>> := [Some(r6)];
    var l5 := [Some(r5)] + l6;
    var l4 := [None] + l5;
    var l3 := [Some(r3)] + l4;
    var l2 := [Some(r2)] + l3;
    var l1 := [Some(r1)] + l2;
    var l0 := [Some(r0)] + l1;
    assert l0 == File(head, ind, a, b, fam);
    var x0, x1, x2 := Leaf(0, head, ""), Leaf(1, "SOUR", ""), Leaf(0, ind, "INDI");
    var x3, x4, x5 := Leaf(1, "NAME", a), Leaf(1, "NAME", b), Leaf(0, fam, "FAM");
    assert Nodes(l6) == [x5] by {
      assert l6 == [Some(r6)] + [];
      NodesSome(r6, []);
    }
    NameIsClean();
    NodesSome(r5, l6);
    NodesNone(l5);
    NodesSome(r3, l4);
    NodesSome(r2, l3);
    NodesSome(r1, l2);
    NodesSome(r0, l1);
    assert Nodes(l0) == [x0] + ([x1] + ([x2] + ([x3] + ([x4] + [x5]))));
    Nest6(x0, x1, x2, x3, x4, x5);
  }

  /** The lines deeper than `level` at the front of `inner + rest` are
      exactly `inner`, when `rest` starts no deeper than `level`. */
  lemma {:induction false} ExtentOfBlock(inner: seq<Node>, rest: seq<Node>, level: nat)
    requires forall i :: 0 <= i < |inner| ==> inner[i].level > level
    requires |rest| > 0 ==> rest[0].level <= level
    ensures Extent(inner + rest, level) == |inner|
    decreases |inner|
  {
    if |inner| > 0 {
      assert (inner + rest)[1..] == inner[1..] + rest;
      ExtentOfBlock(inner[1..], rest, level);
    } else {
      assert inner + rest == rest;
    }
  }

  /** A line followed by its deeper lines and then by a line no deeper is
      one tree followed by the forest of the rest. */
  lemma BuildBlock(a: Node, inner: seq<Node>, rest: seq<Node>)
    requires forall i :: 0 <= i < |inner| ==> inner[i].level > a.level
    requires |rest| > 0 ==> rest[0].level <= a.level
    ensures Build([a] + inner + rest) == [Node(a.level, a.tag, a.value, Build(inner))] + Build(rest)
  {
    SliceParts(a, inner, rest);
    ExtentOfBlock(inner, rest, a.level);
  }

  /** A single childless line is a one-tree forest of itself. */
  lemma BuildLeaf(a: Node)
    requires a.children == []
    ensures Build([a]) == [a]
  {
    var e: seq<Node> := [];
    BuildBlock(a, e, e);
    assert [a] + e + e == [a];
  }

  /** Two childless lines, the second no deeper than the first, are two trees. */
  lemma BuildSiblings(a: Node, b: Node)
    requires a.children == [] && b.children == [] && b.level <= a.level
    ensures Build([a, b]) == [a, b]
  {
    var e: seq<Node> := [];
    BuildBlock(a, e, [b]);
    assert [a] + e + [b] == [a, b];
    BuildLeaf(b);
  }

  /** The person of the file: two untyped names. */
  function Person(ind: string, a: string, b: string): Node {
    Node(0, ind, "INDI", [Leaf(1, "NAME", a), Leaf(1, "NAME", b)])
  }

  lemma PersonForest(ind: string, a: string, b: string, fam: string)
    ensures Build([Leaf(0, ind, "INDI"), Leaf(1, "NAME", a), Leaf(1, "NAME", b), Leaf(0, fam, "FAM")])
            == [Person(ind, a, b), Leaf(0, fam, "FAM")]
  {
    var x2, x3, x4, x5 := Leaf(0, ind, "INDI"), Leaf(1, "NAME", a), Leaf(1, "NAME", b), Leaf(0, fam, "FAM");
    var kids := [x3, x4];
    BuildSiblings(x3, x4);
    BuildLeaf(x5);
    BuildBlock(x2, kids, [x5]);
    Cat3(x2, kids, [x5]);
    assert kids + [x5] == [x3, x4, x5];
    assert [x2] + [x3, x4, x5] == [x2, x3, x4, x5];
    assert Node(0, ind, "INDI", Build(kids)) == Person(ind, a, b);
  }

  /** A line with one deeper sub-line, then the rest. */
  lemma BuildHeader(x0: Node, x1: Node, rest: seq<Node>)
    requires x0.children == [] && x1.children == [] && x1.level > x0.level
    requires |rest| > 0 && rest[0].level <= x0.level
    ensures Build([x0, x1] + rest) == [Node(x0.level, x0.tag, x0.value, [x1])] + Build(rest)
  {
    BuildLeaf(x1);
    assert forall i :: 0 <= i < |[x1]| ==> [x1][i].level > x0.level;
    BuildBlock(x0, [x1], rest);
    PairFront(x0, x1, rest);
  }

  lemma FileForest(head: string, ind: string, a: string, b: string, fam: string)
    ensures Build([Leaf(0, head, ""), Leaf(1, "SOUR", ""), Leaf(0, ind, "INDI"),
                   Leaf(1, "NAME", a), Leaf(1, "NAME", b), Leaf(0, fam, "FAM")])
            == [Node(0, head, "", [Leaf(1, "SOUR", "")]), Person(ind, a, b), Leaf(0, fam, "FAM")]
  {
    var x0, x1, x2 := Leaf(0, head, ""), Leaf(1, "SOUR", ""), Leaf(0, ind, "INDI");
    var x3, x4, x5 := Leaf(1, "NAME", a), Leaf(1, "NAME", b), Leaf(0, fam, "FAM");
    Split6(x0, x1, x2, x3, x4, x5);
    PersonForest(ind, a, b, fam);
    BuildHeader(x0, x1, [x2, x3, x4, x5]);
  }

  lemma RecordsCons(t: Node, ts: seq<Node>)
    ensures Records([t] + ts) == (if IsRecordKind(t.value) then [t] else []) + Records(ts)
  {
    assert ([t] + ts)[1..] == ts;
  }

  lemma FileRecords(h: Node, p: Node, f: Node)
    requires h.value == "" && p.value == "INDI" && f.value == "FAM"
    ensures Records([h, p, f]) == [p, f]
  {
    RecordsCons(f, []);
    RecordsCons(p, [f]);
    RecordsCons(h, [p, f]);
    assert [h] + [p, f] == [h, p, f] && [p] + [f] == [p, f] && [f] + [] == [f];
  }

  /** The forest of the file is the header with its sub-line, the person and
      the family; the parser keeps the last two. */
  lemma FileRoots(head: string, ind: string, a: string, b: string, fam: string)
    requires Clean(head) && Clean(ind) && Clean(fam) && IsTrimmed(a) && IsTrimmed(b)
    ensures Parse(File(head, ind, a, b, fam)) == [Person(ind, a, b), Leaf(0, fam, "FAM")]
  {
    FileNodes(head, ind, a, b, fam);
    ParseIsBlockForest(File(head, ind, a, b, fam));
    FileForest(head, ind, a, b, fam);
    FileRecords(Node(0, head, "", [Leaf(1, "SOUR", "")]), Person(ind, a, b), Leaf(0, fam, "FAM"));
  }
  /** The person's children are two NAMEs and nothing else. */
  lemma PersonTags(ind: string, a: string, b: string)
    ensures var names := Person(ind, a, b).children;
            && Tagged(names, "NAME") == names
            && Tagged(names, "BIRT") == [] && Tagged(names, "DEAT") == []
  {
    var names := Person(ind, a, b).children;
    assert names[1..] == [names[1]] && [names[1]][1..] == [];
  }

  /** Neither NAME carries a TYPE. */
  lemma PersonUntyped(ind: string, a: string, b: string)
    ensures Individual.Untyped(Person(ind, a, b).children) == [0, 1]
  {
    var names := Person(ind, a, b).children;
    assert !HasChild(names[0], "TYPE") && !HasChild(names[1], "TYPE");
    assert Individual.UntypedFrom(names, 2) == [];
    assert Individual.UntypedFrom(names, 1) == [1];
  }

  /** Two untyped names are one finding with the count 2. */
  lemma PersonFindings(ind: string, a: string, b: string)
    ensures Individual.Validate(Person(ind, a, b)) == [UntypedNamesRepeated(2)]
  {
    PersonTags(ind, a, b);
    PersonUntyped(ind, a, b);
  }

  /** A family record without children lacks both spouses. */
  lemma EmptyFamilyFindings(fam: string)
    ensures Family.Validate(Leaf(0, fam, "FAM")) == [SpouseMissing]
  {
  }

  /** An individual with a single finding adds one row and one error. */
  lemma VisitOneIndividual(s: Summary, p: Node, x: Finding)
    requires p.value == "INDI" && Individual.Validate(p) == [x]
    ensures Visit(s, p) == Summary(s.rows + [Row("INDI", p.tag, x)], s.individuals + 1, s.families, s.errors + 1)
  {
    assert RowsOf(p, [x]) == [Row("INDI", p.tag, x)];
  }

  /** A family with a single finding adds one row and one error. */
  lemma VisitOneFamily(s: Summary, f: Node, y: Finding)
    requires f.value == "FAM" && Family.Validate(f) == [y]
    ensures Visit(s, f) == Summary(s.rows + [Row("FAM", f.tag, y)], s.individuals, s.families + 1, s.errors + 1)
  {
    assert RowsOf(f, [y]) == [Row("FAM", f.tag, y)];
  }

  /** Checking one individual and then one family: one row for each of
      their findings, one record of each kind. */
  lemma CheckPair(p: Node, f: Node, x: Finding, y: Finding)
    requires p.value == "INDI" && Individual.Validate(p) == [x]
    requires f.value == "FAM" && Family.Validate(f) == [y]
    ensures Check([p, f]) == Summary([Row("INDI", p.tag, x), Row("FAM", f.tag, y)], 1, 1, 2)
  {
    FirstVisit(p, x);
    SecondVisit(Row("INDI", p.tag, x), f, y);
    RunTwo(Empty, p, f);
  }

  lemma FirstVisit(p: Node, x: Finding)
    requires p.value == "INDI" && Individual.Validate(p) == [x]
    ensures Visit(Empty, p) == Summary([Row("INDI", p.tag, x)], 1, 0, 1)
  {
    VisitOneIndividual(Empty, p, x);
  }

  lemma SecondVisit(r1: Row, f: Node, y: Finding)
    requires f.value == "FAM" && Family.Validate(f) == [y]
    ensures Visit(Summary([r1], 1, 0, 1), f) == Summary([r1, Row("FAM", f.tag, y)], 1, 1, 2)
  {
    VisitOneFamily(Summary([r1], 1, 0, 1), f, y);
    assert [r1] + [Row("FAM", f.tag, y)] == [r1, Row("FAM", f.tag, y)];
  }

  /** The loop over two roots is two visits. */
  lemma RunTwo(s: Summary, p: Node, f: Node)
    ensures Run(s, [p, f]) == Visit(Visit(s, p), f)
  {
    var e: seq<Node> := [];
    RunOne(s, p, [f]);
    RunOne(Visit(s, p), f, e);
    assert [p] + [f] == [p, f] && [f] + e == [f];
  }

  /** One turn of the loop. */
  lemma RunOne(s: Summary, n: Node, rest: seq<Node>)
    ensures Run(s, [n] + rest) == Run(Visit(s, n), rest)
  {
    assert ([n] + rest)[1..] == rest;
  }

  /** The whole pipeline on the file: one row for the person, one for the
      family, one individual, one family, and two errors in total. */
  lemma EndToEnd(head: string, ind: string, a: string, b: string, fam: string)
    requires Clean(head) && Clean(ind) && Clean(fam) && IsTrimmed(a) && IsTrimmed(b)
    ensures CheckLines(File(head, ind, a, b, fam))
            == Summary([Row("INDI", ind, UntypedNamesRepeated(2)), Row("FAM", fam, SpouseMissing)], 1, 1, 2)
  {
    FileRoots(head, ind, a, b, fam);
    PersonFindings(ind, a, b);
    EmptyFamilyFindings(fam);
    CheckPair(Person(ind, a, b), Leaf(0, fam, "FAM"), UntypedNamesRepeated(2), SpouseMissing);
  }

  lemma HeadIsClean()
    ensures Clean("HEAD")
  {
    assert forall i :: 0 <= i < 4 ==> "HEAD"[i] in ['H', 'E', 'A', 'D'];
  }

  lemma IdsAreClean()
    ensures Clean("@I1@") && Clean("@F1@")
  {
    assert forall i :: 0 <= i < 4 ==> "@I1@"[i] in ['@', 'I', '1'];
    assert forall i :: 0 <= i < 4 ==> "@F1@"[i] in ['@', 'F', '1'];
  }

  /** The file with the header `HEAD`, the individual `@I1@` named twice
      without a TYPE and the family `@F1@`. */
  lemma EndToEndExample()
    ensures CheckLines(File("HEAD", "@I1@", "Anna /Berg/", "Anna /Holm/", "@F1@"))
            == Summary([Row("INDI", "@I1@", UntypedNamesRepeated(2)), Row("FAM", "@F1@", SpouseMissing)], 1, 1, 2)
  {
    HeadIsClean();
    IdsAreClean();
    EndToEnd("HEAD", "@I1@", "Anna /Berg/", "Anna /Holm/", "@F1@");
  }
}

=== FILE: seqs.dfy ===
/** Small facts about sequence concatenation and slicing, stated once for
    any element type so that the proofs about concrete files and reports do
    not unfold them element by element. */
module Seqs {

  lemma AppendAssoc<T>(a: seq<T>, b: seq<T>, c: seq<T>)
    ensures a + b + c == a + (b + c)
  {
  }

  lemma Cat3<T>(a: T, inner: seq<T>, rest: seq<T>)
    ensures [a] + inner + rest == [a] + (inner + rest)
  {
  }

  /** The three parts of `[a] + inner + rest`, read back by slicing. */
  lemma SliceParts<T>(a: T, inner: seq<T>, rest: seq<T>)
    ensures var s := [a] + inner + rest;
            s[0] == a && s[1..] == inner + rest && s[1..1 + |inner|] == inner && s[1 + |inner|..] == rest
  {
    var s := [a] + inner + rest;
    assert s[1..] == inner + rest;
  }

  lemma PairFront<T>(x0: T, x1: T, rest: seq<T>)
    ensures [x0] + [x1] + rest == [x0, x1] + rest
  {
  }

  lemma Nest6<T>(x0: T, x1: T, x2: T, x3: T, x4: T, x5: T)
    ensures [x0] + ([x1] + ([x2] + ([x3] + ([x4] + [x5])))) == [x0, x1, x2, x3, x4, x5]
  {
  }

  lemma Split6<T>(x0: T, x1: T, x2: T, x3: T, x4: T, x5: T)
    ensures [x0, x1, x2, x3, x4, x5] == [x0, x1] + [x2, x3, x4, x5]
  {
  }
}

=== FILE: text.dfy ===
/** The two string normalisations the checker applies: Python's `str.strip()`
    with no argument and `str.upper()`, the latter restricted to ASCII letters. */
module Text {

  /** Python's `str.isspace()`: the characters `strip()` removes. */
  predicate IsSpace(c: char) {
    || ('\t' <= c <= '\r')
    || ('\U{1C}' <= c <= '\U{20}')
    || c == '\U{85}' || c == '\U{A0}' || c == '\U{1680}'
    || ('\U{2000}' <= c <= '\U{200A}')
    || c == '\U{2028}' || c == '\U{2029}' || c == '\U{202F}'
    || c == '\U{205F}' || c == '\U{3000}'
  }

  /** Neither end of `s` is whitespace. */
  predicate IsTrimmed(s: string) {
    |s| == 0 || (!IsSpace(s[0]) && !IsSpace(s[|s| - 1]))
  }

  predicate IsLower(c: char) {
    'a' <= c <= 'z'
  }

  predicate NoLower(s: string) {
    forall i :: 0 <= i < |s| ==> !IsLower(s[i])
  }

  /** The number of whitespace characters `s` starts with. */
  function LeadingSpace(s: string): (k: nat)
    ensures k <= |s|
    ensures forall i :: 0 <= i < k ==> IsSpace(s[i])
    ensures k == |s| || !IsSpace(s[k])
  {
    if |s| == 0 || !IsSpace(s[0]) then 0 else 1 + LeadingSpace(s[1..])
  }

  /** The number of whitespace characters `s` ends with. */
  function TrailingSpace(s: string): (k: nat)
    ensures k <= |s|
    ensures forall i :: |s| - k <= i < |s| ==> IsSpace(s[i])
    ensures k == |s| || !IsSpace(s[|s| - 1 - k])
  {
    if |s| == 0 || !IsSpace(s[|s| - 1]) then 0 else 1 + TrailingSpace(s[..|s| - 1])
  }

  /** `r` is the slice of `s` starting at `k` and only whitespace lies around it. */
  predicate StrippedAt(s: string, r: string, k: nat) {
    && k + |r| <= |s| && r == s[k..k + |r|]
    && (forall i :: 0 <= i < k ==> IsSpace(s[i]))
    && (forall i :: k + |r| <= i < |s| ==> IsSpace(s[i]))
  }

  /** Python's `s.strip()`: the result is a trimmed slice of `s` and everything
      cut off on either side is whitespace. */
  function Trim(s: string): (r: string)
    ensures IsTrimmed(r)
    ensures exists k :: StrippedAt(s, r, k)
  {
    var a := LeadingSpace(s);
    var b := TrailingSpace(s[a..]);
    var r := s[a..|s| - b];
    assert |r| > 0 ==> r[0] == s[a] && r[|r| - 1] == s[a..][|s| - a - 1 - b];
    assert forall i :: |s| - b <= i < |s| ==> s[i] == s[a..][i - a];
    assert StrippedAt(s, r, a);
    r
  }

  function UpperChar(c: char): (u: char)
    ensures !IsLower(u)
    ensures IsLower(c) ==> u as int == c as int - 32
    ensures !IsLower(c) ==> u == c
  {
    if IsLower(c) then (c as int - 32) as char else c
  }

  /** Python's `s.upper()` on ASCII letters: every lower-case ASCII letter is
      replaced by its capital, every other character is kept. */
  function Upper(s: string): (r: string)
    ensures |r| == |s| && NoLower(r)
    ensures forall i :: 0 <= i < |s| ==> r[i] == UpperChar(s[i])
  {
    if |s| == 0 then [] else [UpperChar(s[0])] + Upper(s[1..])
  }

  /** Stripping a string without whitespace at either end changes nothing. */
  lemma TrimOfTrimmed(s: string)
    ensures IsTrimmed(s) ==> Trim(s) == s
  {
    if IsTrimmed(s) {
      assert LeadingSpace(s) == 0;
      assert TrailingSpace(s) == 0;
    }
  }

  /** Capitalising a string without lower-case letters changes nothing. */
  lemma UpperOfUpper(s: string)
    ensures NoLower(s) ==> Upper(s) == s
  {
    if NoLower(s) {
      assert forall i :: 0 <= i < |s| ==> Upper(s)[i] == s[i];
    }
  }

  /** Capitalising keeps whitespace where it is, so a trimmed string stays trimmed. */
  lemma UpperKeepsTrimmed(s: string)
    ensures IsTrimmed(s) ==> IsTrimmed(Upper(s))
  {
  }
}

=== FILE: tree.dfy ===
/** The one data structure of the checker: a node of the GEDCOM tree, one per
    input line, owning the lines nested under it. */
module Tree {
  import opened Text

  /** `level` is the line's level number, `tag` its (upper-cased) tag, or the
      cross-reference `@…@` on a record line, and `value` the rest of the
      line, which on a record line is the record kind. */
  datatype Node = Node(level: nat, tag: string, value: string, children: seq<Node>)

  /** The node constructor: the tag is stripped and upper-cased, the value
      stripped, and the node starts without children. */
  function NewNode(level: nat, tag: string, value: string): (n: Node)
    ensures n.level == level && n.children == []
    ensures IsTrimmed(n.tag) && NoLower(n.tag) && IsTrimmed(n.value)
    ensures |n.tag| <= |tag| && |n.value| <= |value|
    ensures IsTrimmed(tag) && NoLower(tag) ==> n.tag == tag
    ensures IsTrimmed(value) ==> n.value == value
    ensures exists k :: StrippedAt(value, n.value, k)
    ensures exists t, k :: && StrippedAt(tag, t, k) && |n.tag| == |t|
                           && forall i :: 0 <= i < |t| ==> n.tag[i] == UpperChar(t[i])
  {
    var t := Trim(tag);
    UpperKeepsTrimmed(t);
    TrimOfTrimmed(tag);
    UpperOfUpper(tag);
    TrimOfTrimmed(value);
    assert exists k :: StrippedAt(tag, t, k);
    Node(level, Upper(t), Trim(value), [])
  }

  /** The two record kinds the checker validates; everything else at the top
      level is ignored. */
  predicate IsRecordKind(value: string) {
    value == "INDI" || value == "FAM"
  }

  /** The nodes of `cs` whose tag is `tag`, in order: the list comprehension
      `[c for c in cs if c.tag == tag]`. */
  function Tagged(cs: seq<Node>, tag: string): (r: seq<Node>)
    ensures |r| <= |cs|
    ensures forall i :: 0 <= i < |r| ==> r[i].tag == tag
  {
    if |cs| == 0 then []
    else if cs[0].tag == tag then [cs[0]] + Tagged(cs[1..], tag)
    else Tagged(cs[1..], tag)
  }

  /** The filter keeps exactly the nodes with the tag. */
  lemma {:induction false} TaggedMembers(cs: seq<Node>, tag: string, c: Node)
    ensures c in Tagged(cs, tag) <==> c in cs && c.tag == tag
    decreases |cs|
  {
    if |cs| > 0 {
      TaggedMembers(cs[1..], tag, c);
      assert c in cs <==> c == cs[0] || c in cs[1..];
    }
  }

  /** Filtering distributes over concatenation. */
  lemma {:induction false} TaggedAppend(a: seq<Node>, b: seq<Node>, tag: string)
    ensures Tagged(a + b, tag) == Tagged(a, tag) + Tagged(b, tag)
    decreases |a|
  {
    if |a| > 0 {
      assert (a + b)[1..] == a[1..] + b;
      TaggedAppend(a[1..], b, tag);
    } else {
      assert a + b == b;
    }
  }

  /** A node tagged `tag` sits in the filtered list at the position given by
      the number of nodes tagged `tag` before it: the filter keeps document
      order. */
  lemma TaggedAt(cs: seq<Node>, tag: string, j: nat)
    requires j < |cs| && cs[j].tag == tag
    ensures |Tagged(cs[..j], tag)| < |Tagged(cs, tag)|
    ensures Tagged(cs, tag)[|Tagged(cs[..j], tag)|] == cs[j]
  {
    assert cs == cs[..j] + cs[j..];
    TaggedAppend(cs[..j], cs[j..], tag);
    assert Tagged(cs[j..], tag)[0] == cs[j];
  }

  /** The number of direct children of `n` tagged `tag`. */
  function Count(n: Node, tag: string): nat {
    |Tagged(n.children, tag)|
  }

  /** Some direct child of `n` is tagged `tag`: Python's `any(...)`. */
  predicate HasChild(n: Node, tag: string) {
    exists c :: c in n.children && c.tag == tag
  }

  lemma HasChildIffCount(n: Node, tag: string)
    ensures HasChild(n, tag) <==> Count(n, tag) > 0
  {
    if Count(n, tag) > 0 {
      var c := Tagged(n.children, tag)[0];
      TaggedMembers(n.children, tag, c);
    }
    if HasChild(n, tag) {
      var c :| c in n.children && c.tag == tag;
      TaggedMembers(n.children, tag, c);
    }
  }

  /** Every child sits at a strictly greater level than its parent, all the
      way down. */
  predicate WellNested(n: Node)
    decreases n
  {
    forall i :: 0 <= i < |n.children| ==>
      n.children[i].level > n.level && WellNested(n.children[i])
  }
}

=== FILE: wrappers.dfy ===
/** The optional-value datatype used for lines that do not match the line
    pattern and for a marriage without a TYPE sub-element. */
module Wrappers {

  datatype Option<+T> = None | Some(value: T)
}
